=== FILE: README.md ===
# swift2FA in Dafny

A model of the TOTP core of the PHP library swift2FA, in its two revisions:

- the `Swift2FA` class, `src/Swift2FA/Swift2FA.php`:
  - the constructor, which keeps a supplied secret or base32-encodes 32 random bytes, and reads `ENCRYPTION_KEY` from the environment;
  - `GetSecreteKey`;
  - `generateTOTP`: HMAC-SHA1 over an 8-byte counter, dynamic truncation, then reduction to `codeLength` decimal digits;
  - `encryptKey` and `decryptKey`: AES-256-CBC and an at-rest blob `base64(ciphertext . "::" . iv)`;
  - the provisioning URI that `generateQR` builds;
  - the validators `TOTPValidate` and `TOTPEmailValidate`;
- the older `S2FA` class, `src/swift2FA.php`:
  - the constructor;
  - `generateOTP`: HMAC-SHA256 over a 4-byte counter;
  - `encryptKey`.

PHP strings are byte strings (`seq<bv8>`). Each thrown exception becomes an `Err` of a `Result`. The codecs the code calls are defined in full:

- `pack`/`unpack` with format `N`;
- base32 as in section 6 of RFC 4648;
- `base64_encode`;
- the lenient `base64_decode`;
- the strict base64 decoding that `openssl_decrypt` applies with options 0;
- `rawurlencode`/`rawurldecode`, used by the corrected URI.

The cryptographic primitives are function-valued parameters:

- HMAC-SHA1 returns 20 bytes and HMAC-SHA256 returns 32.
- AES-256-CBC is a pair of partial functions. Where a property needs decryption to undo encryption, it is stated as a precondition.

The clock, the random generators and the environment are parameters too.

Modules, one per file:

| file | module | contents |
|---|---|---|
| `wrappers.dfy` | `Wrappers` | `Option`, `Result` |
| `php.dfy` | `Php` | the PHP builtins the core uses, and the exception kinds |
| `bits.dfy` | `Bits` | `&`, `\|` and `<<` on integers, with the masking facts |
| `pack.dfy` | `Pack` | `pack("N")` / `unpack("N")` |
| `decimal.dfy` | `Decimal` | `(string)$n` and `str_pad(..., "0", STR_PAD_LEFT)` |
| `base64.dfy` | `Base64` | the base64 codecs |
| `base32.dfy` | `Base32` | the base32 codec |
| `crypto.dfy` | `Crypto` | abstract HMAC and AES, and `openssl_encrypt`/`openssl_decrypt` |
| `hotp.dfy` | `Hotp` | the RFC 4226 reference definitions |
| `totp.dfy` | `Totp` | `generateTOTP` and the validators |
| `vault.dfy` | `Vault` | `encryptKey` / `decryptKey` |
| `otpauth.dfy` | `OtpAuth` | the provisioning URI |
| `swift2fa.dfy` | `Swift2Fa` | the `Swift2FA` object |
| `s2fa.dfy` | `S2fa` | the `S2FA` object |

## Model

| member | source | states |
|---|---|---|
| Swift2Fa.New | src/Swift2FA/Swift2FA.php:72-89 | Construction fails with MissingEncryptionKey exactly when `ENCRYPTION_KEY` is absent. A supplied secret is kept. Without one, the secret is `Base32.Encode` of the 32 random bytes: 56 bytes of base32 text that decode back to those bytes. |
| Swift2Fa.SuppliedSecretReturned | src/Swift2FA/Swift2FA.php:90-93 | `GetSecreteKey` returns the secret passed to the constructor, unchanged. |
| Swift2Fa.GeneratedSecretKeysHmac | src/Swift2FA/Swift2FA.php:75-113 | For a generated secret, `generateTOTP(GetSecreteKey())` always succeeds with six digits. Its value is the RFC 4226 truncation of the HMAC-SHA1, keyed by the original random bytes, of the current 30-second step, modulo 10^6. |
| Swift2Fa.RestoredSecretKeysHmac | src/Swift2FA/Swift2FA.php:136-194 | A generated secret that goes through `encryptKey` and then `decryptKey` comes back as base32 text that decodes to the original random bytes. |
| Base32.Encode | src/Swift2FA/Swift2FA.php:77 | The encoding has length 8·⌈n/5⌉ and holds only alphabet bytes and '='. |
| Base32.Decode | src/Swift2FA/Swift2FA.php:107 | Decoding succeeds exactly when, after trailing '=' are stripped, every byte is in the alphabet and the final group does not have 1, 3 or 6 symbols. It then yields ⌊5m/8⌋ bytes for m symbols. |
| Base32.RoundTrip | src/Swift2FA/Swift2FA.php:107 | Decoding the encoding of any byte string gives that byte string back. This is the secret made at line 77 and read at line 107. |
| Pack.PackN | src/Swift2FA/Swift2FA.php:111 | `pack("N", x)` is four bytes whose big-endian value is x mod 2^32. |
| Pack.UnpackPack | src/swift2FA.php:36 | `pack("N", unpack("N", w))` gives back any 4-byte string w, so `unpack("N")` is injective. |
| Totp.CounterMessage | src/Swift2FA/Swift2FA.php:109-111 | The HMAC message is 8 bytes: four zero bytes, then four bytes whose big-endian value is the step mod 2^32. |
| Totp.TruncationOffset | src/Swift2FA/Swift2FA.php:116 | `ord($hash[19]) & 0x0f` is the last digest byte mod 16, so at most 15. |
| Totp.ShiftOrAssembly | src/Swift2FA/Swift2FA.php:117-121 | Masking, shifting and OR-ing four bytes gives the big-endian number with the top bit cleared, (a mod 128)·2^24 + b·2^16 + c·2^8 + d. |
| Totp.ShiftOr | src/Swift2FA/Swift2FA.php:117-121 | The shift-and-OR expression equals the RFC 4226 31-bit value of the four bytes. |
| Totp.DynamicTruncation | src/Swift2FA/Swift2FA.php:115-121 | The library's truncation equals RFC 4226 dynamic truncation of the 20-byte digest, and is below 2^31. |
| Totp.GenerateTotp | src/Swift2FA/Swift2FA.php:102-128 | The error cases, in order: invalid base32 throws, a zero step divides by zero, a negative length takes a modulus by a float below 1. Otherwise the code is all digits, codeLength long (or "0" for length 0), and its value is the truncated HMAC of ⌊now/step⌋ mod 10^codeLength. |
| Totp.StableWithinStep | src/Swift2FA/Swift2FA.php:109 | Two instants in the same time step get the same code. |
| Totp.TotpValidate | src/Swift2FA/Swift2FA.php:233-237 | Fails only on an invalid secret. Otherwise it answers whether the input is identical to the current default code, and an accepted input is six digits. |
| Totp.ValidateAcceptsExactlyCurrentCode | src/Swift2FA/Swift2FA.php:233-237 | An input is accepted if and only if it is six digits whose value is the truncated HMAC-SHA1 of the current 30-second step mod 10^6. No neighbouring step is tried. |
| Totp.TotpEmailValidate | src/Swift2FA/Swift2FA.php:443-447 | Has the same failure, acceptance and shape guarantees as `TOTPValidate`. |
| Totp.ValidatorsAgree | src/Swift2FA/Swift2FA.php:443-447 | `TOTPEmailValidate` and `TOTPValidate` return the same result for every input, secret and time. |
| Totp.CounterWraps | src/Swift2FA/Swift2FA.php:111 | As written, steps 2^32 apart produce the same HMAC message. |
| Totp.CodeRepeatsAfterWrap | src/Swift2FA/Swift2FA.php:102-128 | As written, the code at now + step·2^32 equals the code at now. |
| Totp.CounterMessageIsRfcCounter | src/Swift2FA/Swift2FA.php:111 | For steps below 2^64, the message equals the 8-byte RFC 4226 counter if and only if the step is below 2^32. |
| Totp.RfcCounterInjective | src/Swift2FA/Swift2FA.php:111 | Corrected counter: distinct steps below 2^64 give distinct messages. |
| Totp.GenerateTotpRfc | src/Swift2FA/Swift2FA.php:102-128 | Corrected engine with the full 64-bit counter: the same errors, digits and length ("0" for length 0), and the value is the truncated HMAC of the RFC counter. |
| Totp.RfcAgreesBeforeWrap | src/Swift2FA/Swift2FA.php:102-128 | While the step is below 2^32, the corrected engine returns exactly what the original returns. |
| Decimal.ToDecimal | src/Swift2FA/Swift2FA.php:127 | `(string)$n` is a non-empty digit string with no leading zero, whose value is n. |
| Decimal.StrPadLeft | src/Swift2FA/Swift2FA.php:127 | `str_pad` with STR_PAD_LEFT keeps the string as a suffix and fills with the pad byte up to the length. A string already longer is left as it is. |
| Decimal.PaddedCode | src/Swift2FA/Swift2FA.php:124-127 | The code string is all digits, and its value is code mod 10^n. It has exactly n characters, or is "0" when n is 0. |
| Php.Explode2 | src/Swift2FA/Swift2FA.php:170-174 | `explode(sep, s, 2)` gives one part (s itself) exactly when sep does not occur. Otherwise it splits at the first occurrence, into two parts that rejoin to s. |
| Php.FloorDiv | src/Swift2FA/Swift2FA.php:109 | `floor(a / b)` is the q with b·q ≤ a < b·q + b for positive b (mirrored for negative b). |
| Base64.Encode | src/Swift2FA/Swift2FA.php:150 | `base64_encode` has length 4·⌈n/3⌉ and holds only alphabet bytes and '='. |
| Base64.EncodeEmpty | src/Swift2FA/Swift2FA.php:151 | An encoding is "" only for the empty input and is never "0", so it is loosely false only when the cipher output was empty. |
| Base64.EncodeHasNoColon | src/Swift2FA/Swift2FA.php:150 | Base64 text never contains ':', so a ciphertext cannot hold the "::" separator. |
| Base64.DecodeLoose | src/Swift2FA/Swift2FA.php:172 | Non-strict `base64_decode` never fails. For m alphabet bytes in the input it yields 3·⌊m/4⌋ bytes plus 0, 0, 1 or 2 for a remainder of 0 to 3; a single leftover value yields nothing. Its inverse partner is Base64.LooseRoundTrip. |
| Base64.LooseSkipsNonAlphabet | src/Swift2FA/Swift2FA.php:172 | Non-strict `base64_decode` skips '=' and every byte outside the alphabet wherever it stands (PHP 7 and later behaviour): removing such a byte leaves the result unchanged. |
| Base64.LooseRoundTrip | src/Swift2FA/Swift2FA.php:172 | `base64_decode(base64_encode(b))` is b for every byte string b. |
| Base64.DecodeStrict | src/Swift2FA/Swift2FA.php:179-185 | Strict decoding accepts text exactly when, after trailing '=' are stripped, every byte is in the alphabet, the symbol count is not 1 mod 4, and any padding is at most two '=' completing a multiple of four. When it accepts, it agrees with the lenient `base64_decode`. |
| Base64.StrictRoundTrip | src/Swift2FA/Swift2FA.php:179-185 | The strict decoding accepts every `base64_encode` output and returns the encoded bytes. |
| Crypto.OpensslEncrypt | src/Swift2FA/Swift2FA.php:142-148 | `openssl_encrypt` with options 0 fails exactly when the cipher fails. Otherwise its text has no ':', decodes strictly to the raw ciphertext, and is the canonical padded `base64_encode` of those bytes. |
| Crypto.OpensslDecrypt | src/Swift2FA/Swift2FA.php:179-185 | `openssl_decrypt` with options 0 fails on input that is not strict base64. Otherwise its result is the raw AES-256-CBC decryption of the decoded bytes. |
| Crypto.OpensslRoundTrip | src/Swift2FA/Swift2FA.php:142-185 | With a cipher whose decryption undoes encryption, `openssl_decrypt` recovers what `openssl_encrypt` encrypted under the same key and IV. |
| Vault.Unframe | src/Swift2FA/Swift2FA.php:170-174 | Splitting the blob fails with MalformedBlob exactly when "::" does not occur. Otherwise the blob is ciphertext . "::" . iv, split at the first "::". |
| Vault.UnframeFrame | src/Swift2FA/Swift2FA.php:150-174 | A ':'-free ciphertext framed with any IV, even one containing "::", is split back into exactly that ciphertext and IV. |
| Vault.EncryptKey | src/Swift2FA/Swift2FA.php:136-158 | Fails with EncryptionFailed exactly when the `openssl_encrypt` result is loosely false. Otherwise the blob is exactly `base64_encode` of what it decodes to, and that is the `openssl_encrypt` text, "::", then the IV. |
| Vault.EncryptFailsExactly | src/Swift2FA/Swift2FA.php:151-156 | `encryptKey` throws exactly when the cipher fails or produces no bytes. |
| Vault.DecryptKey | src/Swift2FA/Swift2FA.php:167-194 | Fails with MalformedBlob exactly when the decoded blob has no "::", and with DecryptionFailed exactly when the blob splits but `openssl_decrypt` fails. A returned secret is the AES decryption, under the IV, of the blob's strictly decoded ciphertext. Conversely, when the blob splits and `openssl_decrypt` succeeds, its plaintext is returned. |
| Vault.DecryptOfEncrypt | src/Swift2FA/Swift2FA.php:136-194 | With a cipher whose decryption undoes encryption, `decryptKey(encryptKey())` returns the secret. |
| OtpAuth.ProvisioningUri | src/Swift2FA/Swift2FA.php:208 | As written, the URI reads back as the scheme, the application name, ':', the email, then `?secret=<secret>&issuer=<name>`. When the name has no ':', the first ':' after the scheme ends it. When neither name nor email has '?', the first '?' ends the email. |
| OtpAuth.UriDeterminesCleanFields | src/Swift2FA/Swift2FA.php:208 | As written, the URI determines the application name, email and secret when the name has no ':' and the email no '?'. |
| OtpAuth.UriAmbiguous | src/Swift2FA/Swift2FA.php:208 | As written, two different accounts can produce the same URI: an email ending in "?secret=…" and a shifted secret. |
| OtpAuth.RawUrlEncode | src/Swift2FA/Swift2FA.php:208 | `rawurlencode` leaves only unreserved bytes and '%'. |
| OtpAuth.UrlRoundTrip | src/Swift2FA/Swift2FA.php:208 | `rawurldecode(rawurlencode(s))` is s for every s. |
| OtpAuth.EncodedProvisioningUri | src/Swift2FA/Swift2FA.php:208 | Corrected URI: it reads back as the scheme, the encoded application name, ':', the encoded email, then `?secret=` with the encoded secret and `&issuer=` with the encoded name. For every input, the first ':' after the scheme ends the encoded name and the first '?' ends the encoded email. |
| OtpAuth.EncodedUriDeterminesFields | src/Swift2FA/Swift2FA.php:208 | Corrected URI: for every input, equal URIs mean equal application name, email and secret. |
| OtpAuth.EncodeKeepsUnreserved | src/Swift2FA/Swift2FA.php:208 | Text made only of unreserved bytes, such as an unpadded base32 secret, is unchanged by the correction. |
| S2fa.New | src/swift2FA.php:13-17 | A truthy secret is kept. Null, "" and "0" are replaced by exactly `base64_encode` of the 10 random bytes: 16 bytes that decode back to them. The code length is stored as given. |
| S2fa.CounterMessage | src/swift2FA.php:26-27 | The HMAC message is four bytes whose big-endian value is ⌊now/30⌋ mod 2^32. |
| S2fa.CounterWraps | src/swift2FA.php:26-27 | The 4-byte counter repeats every 30·2^32 seconds. |
| S2fa.UnpackMasked | src/swift2FA.php:36 | `unpack("N", w)[1] & 0x7fffffff` is the RFC 4226 31-bit value of w. |
| S2fa.Truncate | src/swift2FA.php:34-36 | The offset-and-unpack truncation equals RFC 4226 dynamic truncation of the 32-byte digest, and is below 2^31. |
| S2fa.TruncationForms | src/swift2FA.php:34-36 | For every four bytes, the older unpack-and-mask form equals the newer shift-and-OR form. |
| S2fa.GenerateOtp | src/swift2FA.php:24-41 | Fails exactly for a negative code length. Otherwise the OTP is all digits, codeLength long (or "0" for 0), and its value is the truncated HMAC-SHA256 of the 4-byte step mod 10^codeLength. |
| S2fa.GeneratedSecretKeysHmac | src/swift2FA.php:15-31 | A generated secret keys the HMAC with exactly the random bytes it was made from. |
| S2fa.EncryptKey | src/swift2FA.php:48-66 | Without a failure check, a failed cipher leaves the blob "::" . iv. Otherwise the blob splits into the IV and a ciphertext that strictly decodes to the raw AES output. Either way the blob is exactly `base64_encode` of the `openssl_encrypt` text ("" on failure), "::" and the IV. |
| S2fa.BlobReadableByNewerRevision | src/swift2FA.php:48-66 | The older blob has the newer format: `Swift2FA::decryptKey`, given the discarded random key, recovers the secret from it. |

## Left out

- HMAC-SHA1, HMAC-SHA256 and AES-256-CBC are not modelled inside. They are function parameters returning 20-byte and 32-byte digests and optional ciphertexts; decryption undoing encryption is a precondition where it is needed.
- `time()`, `random_bytes`, `openssl_random_pseudo_bytes`, `$_ENV["ENCRYPTION_KEY"]` and `$_ENV["APP_NAME"]` are parameters. `openssl_cipher_iv_length("AES-256-CBC")` is the constant 16.
- `generateQR` is modelled only up to the URI string. QR rendering and the HTML `<img>` wrapper are foreign calls.
- The mail (PHPMailer), SMS (Twilio), database and example controller code are outside the TOTP core.
- Base32.Encode: the code calls `Encoding::base32Encode` of `ParagonIE\ConstantTime`, which is not part of this model and uses the lowercase alphabet. The model uses the uppercase alphabet of section 6 of RFC 4648 with '=' padding. So a secret written in one letter case is accepted by one side and rejected by the other; how the library treats leftover bits is not modelled either.
- Base32.Decode: the code calls `Encoding::base32Decode`, which uses the lowercase alphabet; the model decodes the uppercase RFC 4648 alphabet, so a secret in one letter case is accepted by one side and rejected by the other. It rejects a final group of 1, 3 or 6 symbols, as RFC 4648 implies; whether the library rejects or ignores such a group is not modelled.
- Base64.DecodeStrict: whitespace, which PHP's strict decoder skips, is treated as an invalid byte. `openssl_encrypt` output never contains whitespace.
- Totp.GenerateTotp: `10 ** $codeLength` is an integer only up to 18 digits; from 19 on PHP computes with floats, which are not modelled. From 309 on the power is INF, which converts to 0, so `%` throws DivisionByZeroError. The model uses exact integers and returns a code for every non-negative length.
- S2fa.GenerateOtp: `10 ** $this->codeLength` is a float from 19 digits on; from 309 on it is INF, which converts to 0, so `%` throws DivisionByZeroError. The model uses exact integers and returns a code for every non-negative length.
- Totp.GenerateTotp: `floor(time() / $timeStep)` is a float passed to `pack`. The model uses exact floor division, which agrees for every realistic `time()`.
- `$_ENV["APP_NAME"]` being unset is modelled as interpolating "" (PHP also emits a warning).
- S2fa.EncryptKey: the random encryption key is made inside `encryptKey` and then discarded, so the blob cannot be decrypted afterwards. The model takes the key as a parameter so that the blob's format can be stated.
- The usage example at the end of `src/swift2FA.php` (lines 69-73) is a script, not part of the class.

## Findings

| source | as written | input that shows it | evidently intended | confidence | as-written member | corrected member |
|---|---|---|---|---|---|---|
| src/Swift2FA/Swift2FA.php:111 | `pack("N*", 0) . pack("N*", $timestamp)` always writes a zero high word and only the low 32 bits of the step | step 2^32 and step 0 give the same HMAC message, hence the same code; section 4.2 of RFC 6238 asks for a counter wider than 32 bits | the 8-byte big-endian step, `pack("J", $timestamp)` | not executed | Totp.CounterWraps | Totp.RfcCounterInjective |
| src/Swift2FA/Swift2FA.php:208 | application name, email and secret are interpolated into the URI unescaped | email "a?secret=x" with secret "S" and email "a" with secret "x?secret=S" give the same URI | each component passed through `rawurlencode` | not executed | OtpAuth.UriAmbiguous | OtpAuth.EncodedUriDeterminesFields |

=== FILE: base32.dfy ===
/**
 * Base32 of section 6 of RFC 4648, uppercase alphabet: how a fresh secret
 * is turned into the text stored and shown to the user, and how that text
 * is turned back into the HMAC key. The library the code calls for this
 * (`Encoding::base32Encode` / `Encoding::base32Decode`, which use the
 * lowercase alphabet) is not part of this model; the standard codec
 * stands in for it.
 */
module Base32 {
  import opened Wrappers
  import opened Php

  const Pad: byte := 0x3d   // '='

  /** The alphabet: 'A'-'Z' for 0..25, '2'-'7' for 26..31. */
  function Symbol(v: byte): (c: byte)
    requires v < 32
  {
    if v < 26 then v + 0x41 else v + 0x18
  }

  /** The 5-bit value of an alphabet byte; `None` for every other byte. */
  function Value(c: byte): (r: Option<byte>)
    ensures r.Some? ==> r.value < 32 && Symbol(r.value) == c
  {
    if 0x41 <= c <= 0x5a then Some(c - 0x41)
    else if 0x32 <= c <= 0x37 then Some(c - 0x18)
    else None
  }

  lemma ValueOfSymbol(v: byte)
    requires v < 32
    ensures Value(Symbol(v)) == Some(v)
  {
  }

  predicate IsSymbol(c: byte) {
    Value(c).Some?
  }

  predicate AllQuintets(v: seq<byte>) {
    forall i | 0 <= i < |v| :: v[i] < 32
  }

  /** Five bytes as eight 5-bit values, most significant bits first. */
  function EncodeGroup(g: Bytes): (v: seq<byte>)
    requires |g| == 5
    ensures |v| == 8 && AllQuintets(v)
  {
    [ g[0] >> 3,
      ((g[0] & 7) << 2) | (g[1] >> 6),
      (g[1] >> 1) & 31,
      ((g[1] & 1) << 4) | (g[2] >> 4),
      ((g[2] & 15) << 1) | (g[3] >> 7),
      (g[3] >> 2) & 31,
      ((g[3] & 3) << 3) | (g[4] >> 5),
      g[4] & 31 ]
  }

  /** Eight 5-bit values as five bytes. */
  function DecodeGroup(v: seq<byte>): (g: Bytes)
    requires |v| == 8
    ensures |g| == 5
  {
    [ (v[0] << 3) | (v[1] >> 2),
      (v[1] << 6) | (v[2] << 1) | (v[3] >> 4),
      (v[3] << 4) | (v[4] >> 1),
      (v[4] << 7) | (v[5] << 2) | (v[6] >> 3),
      (v[6] << 5) | v[7] ]
  }

  lemma GroupRoundTrip(g: Bytes)
    requires |g| == 5
    ensures DecodeGroup(EncodeGroup(g)) == g
  {
  }

  /** Number of 5-bit values a final group of 0..4 bytes yields: 0, 2, 4, 5, 7. */
  function TailQuintets(n: nat): nat
    requires n < 5
  {
    if n == 0 then 0 else if n == 1 then 2 else if n == 2 then 4 else if n == 3 then 5 else 7
  }

  /** Number of bytes a final group of 0, 2, 4, 5 or 7 values decodes to. */
  function TailBytes(m: nat): nat
    requires m < 8
  {
    if m <= 1 then 0 else if m <= 3 then 1 else if m == 4 then 2 else if m <= 6 then 3 else 4
  }

  /** Final groups of these lengths cannot come out of an encoder. */
  predicate IsImpossibleTail(m: nat) {
    m == 1 || m == 3 || m == 6
  }

  /** The 5-bit values of the encoding of `b`, before the alphabet and padding. */
  function Quintets(b: Bytes): (v: seq<byte>)
    ensures |v| == 8 * (|b| / 5) + TailQuintets(|b| % 5)
    ensures AllQuintets(v)
    decreases |b|
  {
    if |b| >= 5 then
      assert |b| / 5 == (|b| - 5) / 5 + 1 && |b| % 5 == (|b| - 5) % 5;
      EncodeGroup(b[..5]) + Quintets(b[5..])
    else if |b| == 0 then []
    else
      assert |b| / 5 == 0 && |b| % 5 == |b|;
      EncodeGroup(b + Repeat(0, 5 - |b|))[..TailQuintets(|b|)]
  }

  /** The bytes a stream of 5-bit values decodes to, group by group. */
  function DecodeQuintets(v: seq<byte>): (b: Bytes)
    ensures |b| == 5 * (|v| / 8) + TailBytes(|v| % 8)
    decreases |v|
  {
    if |v| >= 8 then
      assert |v| / 8 == (|v| - 8) / 8 + 1 && |v| % 8 == (|v| - 8) % 8;
      DecodeGroup(v[..8]) + DecodeQuintets(v[8..])
    else if |v| == 0 then []
    else
      assert |v| / 8 == 0 && |v| % 8 == |v|;
      DecodeGroup(v + Repeat(0, 8 - |v|))[..TailBytes(|v|)]
  }

  /** The zero bytes that fill a final group up to five only ever reach the values that are dropped. */
  lemma TailPadding(t: Bytes)
    requires 1 <= |t| <= 4
    ensures var m := TailQuintets(|t|);
      EncodeGroup(t + Repeat(0, 5 - |t|)) == Quintets(t) + Repeat(0, 8 - m)
  {
    var g, v := t + Repeat(0, 5 - |t|), Quintets(t);
    if |t| == 1 {
      TailPadding1(t);
      assert EncodeGroup(g) == v + Repeat(0, 6);
    } else if |t| == 2 {
      TailPadding2(t);
      assert EncodeGroup(g) == v + Repeat(0, 4);
    } else if |t| == 3 {
      TailPadding3(t);
      assert EncodeGroup(g) == v + Repeat(0, 3);
    } else {
      TailPadding4(t);
      assert EncodeGroup(g) == v + Repeat(0, 1);
    }
  }

  lemma PaddedGroup1(a: byte)
    ensures EncodeGroup([a, 0, 0, 0, 0]) == EncodeGroup([a, 0, 0, 0, 0])[..2] + Repeat(0, 6)
  {
  }

  lemma TailPadding1(t: Bytes)
    requires |t| == 1
    ensures EncodeGroup(t + Repeat(0, 4)) == Quintets(t) + Repeat(0, 6)
  {
    var g := t + Repeat(0, 4);
    assert t == [t[0]] && Repeat(0, 4) == [0, 0, 0, 0];
    assert g == [t[0], 0, 0, 0, 0];
    PaddedGroup1(t[0]);
    assert Quintets(t) == EncodeGroup(g)[..2];
  }

  lemma PaddedGroup2(a: byte, b: byte)
    ensures EncodeGroup([a, b, 0, 0, 0]) == EncodeGroup([a, b, 0, 0, 0])[..4] + Repeat(0, 4)
  {
  }

  lemma TailPadding2(t: Bytes)
    requires |t| == 2
    ensures EncodeGroup(t + Repeat(0, 3)) == Quintets(t) + Repeat(0, 4)
  {
    var g := t + Repeat(0, 3);
    assert t == [t[0], t[1]] && Repeat(0, 3) == [0, 0, 0];
    assert g == [t[0], t[1], 0, 0, 0];
    PaddedGroup2(t[0], t[1]);
    assert Quintets(t) == EncodeGroup(g)[..4];
  }

  lemma PaddedGroup3(a: byte, b: byte, c: byte)
    ensures EncodeGroup([a, b, c, 0, 0]) == EncodeGroup([a, b, c, 0, 0])[..5] + Repeat(0, 3)
  {
  }

  lemma TailPadding3(t: Bytes)
    requires |t| == 3
    ensures EncodeGroup(t + Repeat(0, 2)) == Quintets(t) + Repeat(0, 3)
  {
    var g := t + Repeat(0, 2);
    assert t == [t[0], t[1], t[2]] && Repeat(0, 2) == [0, 0];
    assert g == [t[0], t[1], t[2], 0, 0];
    PaddedGroup3(t[0], t[1], t[2]);
    assert Quintets(t) == EncodeGroup(g)[..5];
  }

  lemma PaddedGroup4(a: byte, b: byte, c: byte, d: byte)
    ensures EncodeGroup([a, b, c, d, 0]) == EncodeGroup([a, b, c, d, 0])[..7] + Repeat(0, 1)
  {
  }

  lemma TailPadding4(t: Bytes)
    requires |t| == 4
    ensures EncodeGroup(t + Repeat(0, 1)) == Quintets(t) + Repeat(0, 1)
  {
    var g := t + Repeat(0, 1);
    assert t == [t[0], t[1], t[2], t[3]] && Repeat(0, 1) == [0];
    assert g == [t[0], t[1], t[2], t[3], 0];
    PaddedGroup4(t[0], t[1], t[2], t[3]);
    assert Quintets(t) == EncodeGroup(g)[..7];
  }

  /** A final group of 1 to 4 bytes survives encoding into 2, 4, 5 or 7 values. */
  lemma TailRoundTrip(t: Bytes)
    requires 1 <= |t| <= 4
    ensures DecodeQuintets(Quintets(t)) == t
  {
    var g := t + Repeat(0, 5 - |t|);
    var v := Quintets(t);
    var full := EncodeGroup(g);
    TailPadding(t);
    assert v + Repeat(0, 8 - |v|) == full && TailBytes(|v|) == |t|;
    GroupRoundTrip(g);
    assert DecodeQuintets(v) == DecodeGroup(full)[..|t|];
    assert g[..|t|] == t;
  }

  lemma {:induction false} QuintetsRoundTrip(b: Bytes)
    ensures DecodeQuintets(Quintets(b)) == b
    decreases |b|
  {
    if |b| >= 5 {
      var v := Quintets(b);
      assert v[..8] == EncodeGroup(b[..5]) && v[8..] == Quintets(b[5..]);
      GroupRoundTrip(b[..5]);
      QuintetsRoundTrip(b[5..]);
      assert b == b[..5] + b[5..];
    } else if |b| > 0 {
      TailRoundTrip(b);
    }
  }

  function Symbols(v: seq<byte>): (s: Bytes)
    requires AllQuintets(v)
    ensures |s| == |v|
    ensures forall i | 0 <= i < |v| :: s[i] == Symbol(v[i])
  {
    seq(|v|, i requires 0 <= i < |v| => Symbol(v[i]))
  }

  /** Each alphabet byte of `Symbols(v)` reads back as the value it came from. */
  lemma SymbolsAreSymbols(v: seq<byte>)
    requires AllQuintets(v)
    ensures forall i | 0 <= i < |v| :: Value(Symbols(v)[i]) == Some(v[i])
    ensures forall i | 0 <= i < |v| :: IsSymbol(Symbols(v)[i])
  {
    forall i | 0 <= i < |v| ensures Value(Symbols(v)[i]) == Some(v[i]) {
      ValueOfSymbol(v[i]);
    }
  }

  /** The values of a string made only of alphabet bytes. */
  function Values(s: Bytes): (v: seq<byte>)
    requires forall i | 0 <= i < |s| :: IsSymbol(s[i])
    ensures |v| == |s|
  {
    seq(|s|, i requires 0 <= i < |s| && IsSymbol(s[i]) => Value(s[i]).value)
  }

  lemma ValuesOfSymbols(v: seq<byte>)
    requires AllQuintets(v)
    ensures forall i | 0 <= i < |v| :: IsSymbol(Symbols(v)[i])
    ensures Values(Symbols(v)) == v
  {
    SymbolsAreSymbols(v);
  }

  lemma Padded(sym: Bytes, k: nat)
    requires forall i | 0 <= i < |sym| :: IsSymbol(sym[i])
    ensures forall i | 0 <= i < |sym| + k :: IsSymbol((sym + Repeat(Pad, k))[i]) || (sym + Repeat(Pad, k))[i] == Pad
  {
  }

  lemma EncodedLength(n: nat)
    ensures var m := 8 * (n / 5) + TailQuintets(n % 5);
      m % 8 == TailQuintets(n % 5) && m + (8 - m % 8) % 8 == 8 * ((n + 4) / 5)
      && !IsImpossibleTail(m % 8)
  {
    var q, r := n / 5, n % 5;
    assert n == 5 * q + r;
    assert (n + 4) / 5 == q + (if r > 0 then 1 else 0);
  }

  /** Alphabet bytes for the values of `n` input bytes, then '=' up to a multiple of eight. */
  lemma PaddedShape(v: seq<byte>, n: nat)
    requires AllQuintets(v) && |v| == 8 * (n / 5) + TailQuintets(n % 5)
    ensures var s := Symbols(v) + Repeat(Pad, (8 - |v| % 8) % 8);
      |s| % 8 == 0 && |s| == 8 * ((n + 4) / 5)
      && forall i | 0 <= i < |s| :: IsSymbol(s[i]) || s[i] == Pad
  {
    var sym, k := Symbols(v), (8 - |v| % 8) % 8;
    var s := sym + Repeat(Pad, k);
    var c := (n + 4) / 5;
    assert |s| == 8 * c by {
      EncodedLength(n);
    }
    assert |s| % 8 == 0;
    assert forall i | 0 <= i < |sym| :: IsSymbol(sym[i]) by {
      SymbolsAreSymbols(v);
    }
    Padded(sym, k);
  }

  /** RFC 4648 base32 encoding (uppercase), standing in for `Encoding::base32Encode($b)`: alphabet bytes, then '=' up to a multiple of eight. */
  function Encode(b: Bytes): (s: Bytes)
    ensures |s| % 8 == 0 && |s| == 8 * ((|b| + 4) / 5)
    ensures forall i | 0 <= i < |s| :: IsSymbol(s[i]) || s[i] == Pad
  {
    var v := Quintets(b);
    PaddedShape(v, |b|);
    Symbols(v) + Repeat(Pad, (8 - |v| % 8) % 8)
  }

  /**
   * RFC 4648 base32 decoding (uppercase), standing in for
   * `Encoding::base32Decode($s)`: trailing '=' are dropped; any other byte
   * outside the alphabet, or a final group of 1, 3 or 6 values, is
   * rejected (`None`, where the library throws).
   */
  function Decode(s: Bytes): (r: Option<Bytes>)
    ensures r.Some? <==>
      (forall i | 0 <= i < |RTrim(s, Pad)| :: IsSymbol(RTrim(s, Pad)[i]))
      && !IsImpossibleTail(|RTrim(s, Pad)| % 8)
    ensures r.Some? ==> |r.value| == 5 * |RTrim(s, Pad)| / 8
  {
    var body := RTrim(s, Pad);
    if (forall i | 0 <= i < |body| :: IsSymbol(body[i])) && !IsImpossibleTail(|body| % 8) then
      Some(DecodeQuintets(Values(body)))
    else None
  }

  /** The trimmed text of an encoding is its alphabet part. */
  lemma TrimEncoded(b: Bytes)
    ensures RTrim(Encode(b), Pad) == Symbols(Quintets(b))
  {
    var v := Quintets(b);
    var sym := Symbols(v);
    var k := (8 - |v| % 8) % 8;
    assert Encode(b) == sym + Repeat(Pad, k);
    if |v| > 0 {
      ValueOfSymbol(v[|v| - 1]);
    }
    RTrimAppended(sym, Pad, k);
  }

  /** Decoding inverts encoding: the HMAC key is exactly the bytes the secret was made from. */
  lemma {:induction false} RoundTrip(b: Bytes)
    ensures Decode(Encode(b)) == Some(b)
  {
    var v := Quintets(b);
    TrimEncoded(b);
    ValuesOfSymbols(v);
    EncodedLength(|b|);
    QuintetsRoundTrip(b);
  }
}

=== FILE: base64.dfy ===
/**
 * Base64 of section 4 of RFC 4648 as PHP uses it: `base64_encode`, the
 * non-strict `base64_decode`, and the strict decoding `openssl_decrypt`
 * applies to its input when called with options 0.
 */
module Base64 {
  import opened Wrappers
  import opened Php

  const Pad: byte := 0x3d   // '='

  /** The alphabet: 'A'-'Z', 'a'-'z', '0'-'9', '+', '/' for 0..63. */
  function Symbol(v: byte): (c: byte)
    requires v < 64
  {
    if v < 26 then v + 0x41
    else if v < 52 then v + 0x47
    else if v < 62 then v - 4
    else if v == 62 then 0x2b
    else 0x2f
  }

  /** The 6-bit value of an alphabet byte; `None` for every other byte. */
  function Value(c: byte): (r: Option<byte>)
    ensures r.Some? ==> r.value < 64 && Symbol(r.value) == c
  {
    if 0x41 <= c <= 0x5a then Some(c - 0x41)
    else if 0x61 <= c <= 0x7a then Some(c - 0x47)
    else if 0x30 <= c <= 0x39 then Some(c + 4)
    else if c == 0x2b then Some(62)
    else if c == 0x2f then Some(63)
    else None
  }

  lemma ValueOfSymbol(v: byte)
    requires v < 64
    ensures Value(Symbol(v)) == Some(v)
  {
  }

  predicate IsSymbol(c: byte) {
    Value(c).Some?
  }

  predicate AllSextets(v: seq<byte>) {
    forall i | 0 <= i < |v| :: v[i] < 64
  }

  /** Three bytes as four 6-bit values, most significant bits first. */
  function EncodeGroup(g: Bytes): (v: seq<byte>)
    requires |g| == 3
    ensures |v| == 4 && AllSextets(v)
  {
    [g[0] >> 2, ((g[0] & 3) << 4) | (g[1] >> 4), ((g[1] & 15) << 2) | (g[2] >> 6), g[2] & 63]
  }

  /** Four 6-bit values as three bytes. */
  function DecodeGroup(v: seq<byte>): (g: Bytes)
    requires |v| == 4
    ensures |g| == 3
  {
    [(v[0] << 2) | (v[1] >> 4), (v[1] << 4) | (v[2] >> 2), (v[2] << 6) | v[3]]
  }

  lemma GroupRoundTrip(g: Bytes)
    requires |g| == 3
    ensures DecodeGroup(EncodeGroup(g)) == g
  {
  }

  /** Number of 6-bit values a final group of 0, 1 or 2 bytes yields. */
  function TailSextets(n: nat): nat
    requires n < 3
  {
    if n == 0 then 0 else n + 1
  }

  /** Number of bytes 0..3 leftover 6-bit values decode to. */
  function TailBytes(m: nat): nat
    requires m < 4
  {
    if m == 0 then 0 else m - 1
  }

  /** The 6-bit values of the encoding of `b`, before the alphabet and padding. */
  function Sextets(b: Bytes): (v: seq<byte>)
    ensures |v| == 4 * (|b| / 3) + TailSextets(|b| % 3)
    ensures AllSextets(v)
    decreases |b|
  {
    if |b| >= 3 then EncodeGroup(b[..3]) + Sextets(b[3..])
    else if |b| == 0 then []
    else EncodeGroup(b + Repeat(0, 3 - |b|))[..TailSextets(|b|)]
  }

  /**
   * The bytes a stream of 6-bit values decodes to: each full group of four
   * gives three bytes; a final 3 or 2 values give 2 or 1 bytes, and a
   * single leftover value gives nothing.
   */
  function DecodeSextets(v: seq<byte>): (b: Bytes)
    ensures |b| == 3 * (|v| / 4) + TailBytes(|v| % 4)
    decreases |v|
  {
    if |v| >= 4 then DecodeGroup(v[..4]) + DecodeSextets(v[4..])
    else if |v| <= 1 then []
    else DecodeGroup(v + Repeat(0, 4 - |v|))[..TailBytes(|v|)]
  }

  /** The zero bytes that fill a final group up to three only ever reach the values that are dropped. */
  lemma TailPadding(t: Bytes)
    requires 1 <= |t| <= 2
    ensures EncodeGroup(t + Repeat(0, 3 - |t|)) == Sextets(t) + Repeat(0, 4 - TailSextets(|t|))
  {
    var g, v := t + Repeat(0, 3 - |t|), Sextets(t);
    if |t| == 1 {
      TailPadding1(t);
      assert EncodeGroup(g) == v + Repeat(0, 2);
    } else {
      TailPadding2(t);
      assert EncodeGroup(g) == v + Repeat(0, 1);
    }
  }

  lemma PaddedGroup1(a: byte)
    ensures EncodeGroup([a, 0, 0]) == EncodeGroup([a, 0, 0])[..2] + Repeat(0, 2)
  {
  }

  lemma TailPadding1(t: Bytes)
    requires |t| == 1
    ensures EncodeGroup(t + Repeat(0, 2)) == Sextets(t) + Repeat(0, 2)
  {
    var g := t + Repeat(0, 2);
    assert t == [t[0]] && Repeat(0, 2) == [0, 0];
    assert g == [t[0], 0, 0];
    PaddedGroup1(t[0]);
    assert Sextets(t) == EncodeGroup(g)[..2];
  }

  lemma PaddedGroup2(a: byte, b: byte)
    ensures EncodeGroup([a, b, 0]) == EncodeGroup([a, b, 0])[..3] + Repeat(0, 1)
  {
  }

  lemma TailPadding2(t: Bytes)
    requires |t| == 2
    ensures EncodeGroup(t + Repeat(0, 1)) == Sextets(t) + Repeat(0, 1)
  {
    var g := t + Repeat(0, 1);
    assert t == [t[0], t[1]] && Repeat(0, 1) == [0];
    assert g == [t[0], t[1], 0];
    PaddedGroup2(t[0], t[1]);
    assert Sextets(t) == EncodeGroup(g)[..3];
  }

  /** A final group of 1 or 2 bytes survives encoding into 2 or 3 values. */
  lemma TailRoundTrip(t: Bytes)
    requires 1 <= |t| <= 2
    ensures DecodeSextets(Sextets(t)) == t
  {
    var g := t + Repeat(0, 3 - |t|);
    var v := Sextets(t);
    var full := EncodeGroup(g);
    TailPadding(t);
    assert v + Repeat(0, 4 - |v|) == full && TailBytes(|v|) == |t|;
    GroupRoundTrip(g);
    assert DecodeSextets(v) == DecodeGroup(full)[..|t|];
    assert g[..|t|] == t;
  }

  lemma {:induction false} SextetsRoundTrip(b: Bytes)
    ensures DecodeSextets(Sextets(b)) == b
    decreases |b|
  {
    if |b| >= 3 {
      var v := Sextets(b);
      var head := EncodeGroup(b[..3]);
      assert v[..4] == head && v[4..] == Sextets(b[3..]);
      GroupRoundTrip(b[..3]);
      SextetsRoundTrip(b[3..]);
      assert b == b[..3] + b[3..];
    } else if |b| > 0 {
      TailRoundTrip(b);
    }
  }

  function Symbols(v: seq<byte>): (s: Bytes)
    requires AllSextets(v)
    ensures |s| == |v|
    ensures forall i | 0 <= i < |v| :: s[i] == Symbol(v[i])
  {
    seq(|v|, i requires 0 <= i < |v| => Symbol(v[i]))
  }

  /** Every byte of `Symbols(v)` is in the alphabet, so none of them is '='. */
  lemma SymbolsAreSymbols(v: seq<byte>)
    requires AllSextets(v)
    ensures forall i | 0 <= i < |v| :: IsSymbol(Symbols(v)[i])
  {
    forall i | 0 <= i < |v| ensures IsSymbol(Symbols(v)[i]) {
      ValueOfSymbol(v[i]);
    }
  }

  lemma Padded(sym: Bytes, k: nat)
    requires forall i | 0 <= i < |sym| :: IsSymbol(sym[i])
    ensures forall i | 0 <= i < |sym| + k :: IsSymbol((sym + Repeat(Pad, k))[i]) || (sym + Repeat(Pad, k))[i] == Pad
  {
  }

  /** Lengths: the values of n bytes, padded to a multiple of four, take 4 * ceil(n / 3) bytes. */
  lemma EncodedLength(n: nat)
    ensures var m := 4 * (n / 3) + TailSextets(n % 3);
      m % 4 == TailSextets(n % 3) && m + (4 - m % 4) % 4 == 4 * ((n + 2) / 3)
      && m % 4 != 1 && (4 - m % 4) % 4 <= 2
  {
    var q, r := n / 3, n % 3;
    assert n == 3 * q + r;
    assert (n + 2) / 3 == q + (if r > 0 then 1 else 0);
  }

  /** Alphabet bytes for the values of `n` input bytes, then '=' up to a multiple of four. */
  lemma PaddedShape(v: seq<byte>, n: nat)
    requires AllSextets(v) && |v| == 4 * (n / 3) + TailSextets(n % 3)
    ensures var s := Symbols(v) + Repeat(Pad, (4 - |v| % 4) % 4);
      |s| % 4 == 0 && |s| == 4 * ((n + 2) / 3)
      && forall i | 0 <= i < |s| :: IsSymbol(s[i]) || s[i] == Pad
  {
    var sym, k := Symbols(v), (4 - |v| % 4) % 4;
    var m := |v|;
    assert |sym + Repeat(Pad, k)| == m + k;
    assert m + k == 4 * ((n + 2) / 3) by {
      EncodedLength(n);
    }
    assert forall i | 0 <= i < |sym| :: IsSymbol(sym[i]) by {
      SymbolsAreSymbols(v);
    }
    Padded(sym, k);
  }

  /** `base64_encode($b)`: alphabet bytes, then '=' up to a multiple of four. */
  function Encode(b: Bytes): (s: Bytes)
    ensures |s| % 4 == 0 && |s| == 4 * ((|b| + 2) / 3)
    ensures forall i | 0 <= i < |s| :: IsSymbol(s[i]) || s[i] == Pad
  {
    var v := Sextets(b);
    PaddedShape(v, |b|);
    Symbols(v) + Repeat(Pad, (4 - |v| % 4) % 4)
  }

  /** Only the empty string encodes to "", and no encoding is "0". */
  lemma EncodeEmpty(b: Bytes)
    ensures Encode(b) == [] <==> b == []
    ensures Encode(b) != [Zero]
  {
    var n := |b|;
    assert n > 0 ==> (n + 2) / 3 >= 1;
  }

  /** The trimmed text of an encoding is its alphabet part. */
  lemma TrimEncoded(b: Bytes)
    ensures RTrim(Encode(b), Pad) == Symbols(Sextets(b))
  {
    var v := Sextets(b);
    var sym := Symbols(v);
    var k := (4 - |v| % 4) % 4;
    assert Encode(b) == sym + Repeat(Pad, k);
    if |v| > 0 {
      ValueOfSymbol(v[|v| - 1]);
    }
    RTrimAppended(sym, Pad, k);
  }

  /** Base64 text never contains ':'. */
  lemma EncodeHasNoColon(b: Bytes)
    ensures Colon !in Encode(b)
  {
  }

  /** The 6-bit values of the alphabet bytes of `s`, every other byte skipped. */
  function AlphabetValues(s: Bytes): (v: seq<byte>)
    ensures AllSextets(v) && |v| <= |s|
    decreases |s|
  {
    if |s| == 0 then []
    else
      var rest := AlphabetValues(s[1..]);
      match Value(s[0])
      case Some(x) => [x] + rest
      case None => rest
  }

  lemma {:induction false} AlphabetValuesAppend(s: Bytes, t: Bytes)
    ensures AlphabetValues(s + t) == AlphabetValues(s) + AlphabetValues(t)
    decreases |s|
  {
    if |s| > 0 {
      assert (s + t)[0] == s[0];
      assert (s + t)[1..] == s[1..] + t;
      AlphabetValuesAppend(s[1..], t);
      match Value(s[0]) {
        case Some(x) =>
          assert [x] + AlphabetValues(s[1..]) + AlphabetValues(t) == [x] + (AlphabetValues(s[1..]) + AlphabetValues(t));
        case None =>
      }
    } else {
      assert s + t == t;
    }
  }

  lemma {:induction false} AlphabetValuesOfSymbols(v: seq<byte>)
    requires AllSextets(v)
    ensures AlphabetValues(Symbols(v)) == v
    decreases |v|
  {
    if |v| > 0 {
      assert Symbols(v)[1..] == Symbols(v[1..]);
      ValueOfSymbol(v[0]);
      AlphabetValuesOfSymbols(v[1..]);
    }
  }

  lemma {:induction false} AlphabetValuesOfPadding(k: nat)
    ensures AlphabetValues(Repeat(Pad, k)) == []
    decreases k
  {
    if k > 0 {
      assert Repeat(Pad, k)[1..] == Repeat(Pad, k - 1);
      AlphabetValuesOfPadding(k - 1);
    }
  }

  /**
   * `base64_decode($s)` (non-strict): '=' and bytes outside the alphabet
   * are skipped, the remaining values are decoded as one stream. It never
   * fails.
   */
  function DecodeLoose(s: Bytes): (b: Bytes)
    ensures |b| <= |s|
    ensures var m := |AlphabetValues(s)|; |b| == 3 * (m / 4) + TailBytes(m % 4)
  {
    DecodeSextets(AlphabetValues(s))
  }

  /**
   * The strict decoding `openssl_decrypt` applies with options 0: alphabet
   * bytes followed only by '='; no single leftover value; and when padding
   * is present, at most two '=' completing a multiple of four.
   */
  function DecodeStrict(s: Bytes): (r: Option<Bytes>)
    ensures r.Some? <==>
      (forall i | 0 <= i < |RTrim(s, Pad)| :: IsSymbol(RTrim(s, Pad)[i]))
      && |RTrim(s, Pad)| % 4 != 1
      && (|s| == |RTrim(s, Pad)| || (|s| - |RTrim(s, Pad)| <= 2 && |s| % 4 == 0))
    ensures r.Some? ==> r.value == DecodeLoose(s)
  {
    var body := RTrim(s, Pad);
    var padding := |s| - |body|;
    if (forall i | 0 <= i < |body| :: IsSymbol(body[i]))
      && |body| % 4 != 1
      && (padding == 0 || (padding <= 2 && |s| % 4 == 0))
    then
      assert s == body + Repeat(Pad, padding);
      AlphabetValuesAppend(body, Repeat(Pad, padding));
      AlphabetValuesOfPadding(padding);
      assert AlphabetValues(s) == AlphabetValues(body);
      Some(DecodeSextets(AlphabetValues(body)))
    else None
  }

  /** The lenient decoder skips '=' and every byte outside the alphabet, wherever it stands. */
  lemma {:induction false} LooseSkipsNonAlphabet(a: Bytes, x: byte, b: Bytes)
    requires !IsSymbol(x)
    ensures DecodeLoose(a + [x] + b) == DecodeLoose(a + b)
  {
    assert AlphabetValues([x]) == [] by {
      assert [x][1..] == [];
      assert Value([x][0]).None?;
    }
    calc {
      AlphabetValues(a + [x] + b);
      { AlphabetValuesAppend(a + [x], b); }
      AlphabetValues(a + [x]) + AlphabetValues(b);
      { AlphabetValuesAppend(a, [x]); }
      AlphabetValues(a) + AlphabetValues(b);
      { AlphabetValuesAppend(a, b); }
      AlphabetValues(a + b);
    }
  }

  /** `base64_decode(base64_encode($b)) === $b`. */
  lemma {:induction false} LooseRoundTrip(b: Bytes)
    ensures DecodeLoose(Encode(b)) == b
  {
    var v := Sextets(b);
    var k := (4 - |v| % 4) % 4;
    assert Encode(b) == Symbols(v) + Repeat(Pad, k);
    AlphabetValuesAppend(Symbols(v), Repeat(Pad, k));
    AlphabetValuesOfSymbols(v);
    AlphabetValuesOfPadding(k);
    assert AlphabetValues(Encode(b)) == v + [] == v;
    SextetsRoundTrip(b);
  }

  /** The strict decoder accepts every encoding and returns the encoded bytes. */
  lemma {:induction false} StrictRoundTrip(b: Bytes)
    ensures DecodeStrict(Encode(b)) == Some(b)
  {
    var s, v := Encode(b), Sextets(b);
    var body := RTrim(s, Pad);
    TrimEncoded(b);
    assert forall i | 0 <= i < |body| :: IsSymbol(body[i]) by {
      SymbolsAreSymbols(v);
    }
    assert |body| % 4 != 1 && |s| - |body| <= 2 && |s| % 4 == 0 by {
      EncodedLength(|b|);
    }
    assert DecodeStrict(s).Some?;
    LooseRoundTrip(b);
  }
}

=== FILE: bits.dfy ===
/**
 * PHP's bitwise operators on non-negative integers, defined bit by bit,
 * with the arithmetic facts the OTP truncation relies on: masking with
 * 2^k - 1 keeps the value modulo 2^k, and `|` of non-overlapping fields
 * is their sum.
 */
module Bits {

  function Pow2(k: nat): (p: nat)
    ensures p >= 1
  {
    if k == 0 then 1 else 2 * Pow2(k - 1)
  }

  /** `$a & $b` for non-negative integers. */
  function BitAnd(a: nat, b: nat): nat
    decreases a
  {
    if a == 0 || b == 0 then 0
    else 2 * BitAnd(a / 2, b / 2) + (if a % 2 == 1 && b % 2 == 1 then 1 else 0)
  }

  /** `$a | $b` for non-negative integers. */
  function BitOr(a: nat, b: nat): nat
    decreases a + b
  {
    if a == 0 then b
    else if b == 0 then a
    else 2 * BitOr(a / 2, b / 2) + (if a % 2 == 1 || b % 2 == 1 then 1 else 0)
  }

  /** `$a << $k`, for results that stay below 2^63 (no 64-bit overflow). */
  function Shl(a: nat, k: nat): nat {
    a * Pow2(k)
  }

  lemma MulAtLeast(d: int, a: int)
    requires d > 0 && a >= 1
    ensures d * a >= d
  {
    assert d * a == d * (a - 1) + d;
    assert d * (a - 1) >= 0;
  }

  lemma ModUnique(x: int, d: int, q: int, r: int)
    requires d > 0 && x == d * q + r && 0 <= r < d
    ensures x / d == q && x % d == r
  {
    var q', r' := x / d, x % d;
    assert x == d * q' + r';
    assert d * q - d * q' == r' - r;
    if q > q' {
      assert d * (q - q') == r' - r;
      MulAtLeast(d, q - q');
    } else if q < q' {
      assert d * (q' - q) == r - r';
      MulAtLeast(d, q' - q);
    }
  }

  lemma ModDouble(x: nat, p: nat)
    requires p >= 1
    ensures x % (2 * p) == 2 * ((x / 2) % p) + x % 2
  {
    var h, t := x / 2, (x / 2) % p;
    var s := h / p;
    assert h == p * s + t;
    assert x == (2 * p) * s + (2 * t + x % 2);
    ModUnique(x, 2 * p, s, 2 * t + x % 2);
  }

  /** With an odd mask the lowest bit of `$x` survives. */
  lemma BitAndOdd(x: nat, n: nat)
    ensures BitAnd(x, 2 * n + 1) == 2 * BitAnd(x / 2, n) + x % 2
  {
    var m := 2 * n + 1;
    assert m % 2 == 1 && m / 2 == n;
  }

  /** One bit more: if masking keeps the low k - 1 bits of `$x >> 1`, it keeps the low k bits of `$x`. */
  lemma MaskStep(x: nat, k: nat)
    requires k > 0
    requires BitAnd(x / 2, Pow2(k - 1) - 1) == (x / 2) % Pow2(k - 1)
    ensures BitAnd(x, Pow2(k) - 1) == x % Pow2(k)
  {
    var p, h := Pow2(k), Pow2(k - 1);
    assert p == 2 * h && p - 1 == 2 * (h - 1) + 1;
    calc {
      BitAnd(x, p - 1);
      == { BitAndOdd(x, h - 1); }
      2 * BitAnd(x / 2, h - 1) + x % 2;
      2 * ((x / 2) % h) + x % 2;
      == { ModDouble(x, h); }
      x % p;
    }
  }

  /** Masking with 2^k - 1 keeps the low k bits: `$x & (2^k - 1) == $x % 2^k`. */
  lemma {:induction false} MaskLow(x: nat, k: nat)
    ensures BitAnd(x, Pow2(k) - 1) == x % Pow2(k)
    decreases k
  {
    if k == 0 {
      assert Pow2(k) == 1 && BitAnd(x, 0) == 0;
    } else if x == 0 {
      SmallMod(0, Pow2(k));
    } else {
      MaskLow(x / 2, k - 1);
      MaskStep(x, k);
    }
  }

  /** A field shifted left by k and a value below 2^k do not overlap, so `|` adds them. */
  lemma {:induction false} OrDisjoint(a: nat, b: nat, k: nat)
    requires b < Pow2(k)
    ensures BitOr(Shl(a, k), b) == Shl(a, k) + b
    decreases k
  {
    if k > 0 && a != 0 && b != 0 {
      var x := Shl(a, k);
      assert x == 2 * Shl(a, k - 1);
      assert x / 2 == Shl(a, k - 1) && x % 2 == 0;
      OrDisjoint(a, b / 2, k - 1);
    }
  }

  lemma Pow2Values()
    ensures Pow2(4) == 0x10 && Pow2(7) == 0x80 && Pow2(8) == 0x100
    ensures Pow2(16) == 0x1_0000 && Pow2(24) == 0x100_0000 && Pow2(31) == 0x8000_0000
  {
  }

  /** `$x & $mask` for a mask 2^k - 1 given as a literal. */
  lemma MaskLiteral(x: nat, k: nat, mask: nat)
    requires mask == Pow2(k) - 1
    ensures BitAnd(x, mask) == x % (mask + 1)
  {
    MaskLow(x, k);
  }

  lemma SmallMod(x: nat, m: nat)
    requires x < m
    ensures x % m == x
  {
  }

  /** `$x & 0xff` leaves a byte value unchanged. */
  lemma MaskByte(x: nat)
    requires x < 0x100
    ensures BitAnd(x, 0xff) == x
  {
    var p := Pow2(8);
    assert p == 0x100;
    MaskLow(x, 8);
    SmallMod(x, p);
  }

  /** `$x & 0x0f` is the low nibble. */
  lemma MaskNibble(x: nat)
    ensures BitAnd(x, 0x0f) == x % 0x10
  {
    var p := Pow2(4);
    assert p == 0x10;
    MaskLow(x, 4);
  }

  /** `$x & 0x7fffffff` keeps the low 31 bits. */
  lemma Mask31(x: nat)
    ensures BitAnd(x, 0x7fff_ffff) == x % 0x8000_0000
  {
    Pow2Values();
    var p := Pow2(31);
    assert p == 0x8000_0000;
    MaskLow(x, 31);
  }
}

=== FILE: crypto.dfy ===
/**
 * The foreign cryptography the library calls, kept abstract: keyed hashes
 * and AES-256-CBC are function values supplied by the caller, constrained
 * only by their digest lengths and by decryption inverting encryption.
 * Around them, the exact `openssl_encrypt` / `openssl_decrypt` behaviour
 * for options 0 (base64 text in and out) is modelled.
 */
module Crypto {
  import opened Wrappers
  import opened Php
  import Base64

  type Digest20 = s: Bytes | |s| == 20 witness Repeat(0, 20)
  type Digest32 = s: Bytes | |s| == 32 witness Repeat(0, 32)

  /** `hash_hmac("sha1", $message, $key, true)`, taking (key, message). */
  type HmacSha1 = (Bytes, Bytes) -> Digest20

  /** `hash_hmac("sha256", $message, $key, true)`, taking (key, message). */
  type HmacSha256 = (Bytes, Bytes) -> Digest32

  /**
   * Raw AES-256-CBC with PKCS#7 padding, both directions taking
   * (key, iv, data); `None` is OpenSSL reporting failure.
   */
  datatype Aes256Cbc = Aes256Cbc(
    encrypt: (Bytes, Bytes, Bytes) -> Option<Bytes>,
    decrypt: (Bytes, Bytes, Bytes) -> Option<Bytes>)

  /** The one property assumed of the cipher: decryption undoes a successful encryption. */
  ghost predicate DecryptInvertsEncrypt(c: Aes256Cbc) {
    forall key, iv, plain | c.encrypt(key, iv, plain).Some? ::
      c.decrypt(key, iv, c.encrypt(key, iv, plain).value) == Some(plain)
  }

  /** `openssl_cipher_iv_length("AES-256-CBC")`. */
  const IvLength: nat := 16

  /**
   * `openssl_encrypt($data, "AES-256-CBC", $key, 0, $iv)`: with options 0
   * the raw ciphertext comes back base64-encoded, so it never holds ':'.
   */
  function OpensslEncrypt(c: Aes256Cbc, data: Bytes, key: Bytes, iv: Bytes): (r: Option<Bytes>)
    ensures r.Some? <==> c.encrypt(key, iv, data).Some?
    ensures r.Some? ==> Colon !in r.value
    ensures r.Some? ==> Base64.DecodeStrict(r.value) == c.encrypt(key, iv, data)
    ensures r.Some? ==> r.value == Base64.Encode(Base64.DecodeStrict(r.value).value)
  {
    match c.encrypt(key, iv, data)
    case None => None
    case Some(raw) =>
      Base64.EncodeHasNoColon(raw);
      Base64.StrictRoundTrip(raw);
      Some(Base64.Encode(raw))
  }

  /**
   * `openssl_decrypt($data, "AES-256-CBC", $key, 0, $iv)`: the input is
   * first base64-decoded strictly; text that does not decode, like a
   * failing decryption, gives false (`None`).
   */
  function OpensslDecrypt(c: Aes256Cbc, data: Bytes, key: Bytes, iv: Bytes): (r: Option<Bytes>)
    ensures Base64.DecodeStrict(data).None? ==> r.None?
    ensures Base64.DecodeStrict(data).Some? ==> r == c.decrypt(key, iv, Base64.DecodeStrict(data).value)
  {
    match Base64.DecodeStrict(data)
    case None => None
    case Some(raw) => c.decrypt(key, iv, raw)
  }

  /** Decrypting what was encrypted under the same key and IV returns the plaintext. */
  lemma OpensslRoundTrip(c: Aes256Cbc, data: Bytes, key: Bytes, iv: Bytes)
    requires DecryptInvertsEncrypt(c)
    requires OpensslEncrypt(c, data, key, iv).Some?
    ensures OpensslDecrypt(c, OpensslEncrypt(c, data, key, iv).value, key, iv) == Some(data)
  {
  }
}

=== FILE: decimal.dfy ===
/**
 * Decimal text as PHP produces it: the `(string)` cast of a non-negative
 * integer, `str_pad(..., STR_PAD_LEFT)`, and the zero-padded code string
 * both library revisions return as the one-time password.
 */
module Decimal {
  import opened Php
  import Bits

  predicate IsDigit(b: byte) {
    0x30 <= b <= 0x39
  }

  predicate AllDigits(s: Bytes) {
    forall i | 0 <= i < |s| :: IsDigit(s[i])
  }

  function DigitValue(b: byte): nat
    requires IsDigit(b)
  {
    b as int - 0x30
  }

  function DigitChar(d: nat): (c: byte)
    requires d < 10
    ensures IsDigit(c) && DigitValue(c) == d
  {
    Chr(d + 0x30)
  }

  /** The number a digit string denotes, read most significant digit first. */
  function DigitsValue(s: Bytes): nat
    requires AllDigits(s)
    decreases |s|
  {
    if |s| == 0 then 0 else 10 * DigitsValue(s[..|s| - 1]) + DigitValue(s[|s| - 1])
  }

  /** `(string) $n` for a non-negative integer `$n`: its digits without leading zeros. */
  function ToDecimal(n: nat): (r: Bytes)
    ensures 1 <= |r| && AllDigits(r)
    ensures DigitsValue(r) == n
    ensures |r| == 1 || r[0] != Zero
    decreases n
  {
    if n < 10 then [DigitChar(n)]
    else
      var init := ToDecimal(n / 10);
      var r := init + [DigitChar(n % 10)];
      assert r[..|r| - 1] == init;
      r
  }

  /** A number below 10^k (k >= 1) needs at most k digits. */
  lemma {:induction false} ToDecimalLength(n: nat, k: nat)
    requires 1 <= k && n < Pow10(k)
    ensures |ToDecimal(n)| <= k
    decreases k
  {
    if n >= 10 {
      assert k >= 2;
      ToDecimalLength(n / 10, k - 1);
    }
  }

  /** `str_pad($s, $length, $pad, STR_PAD_LEFT)` with a one-byte pad string. */
  function StrPadLeft(s: Bytes, length: int, pad: byte): (r: Bytes)
    ensures |s| <= length ==> |r| == length
    ensures length < |s| ==> |r| == |s|
    ensures |s| <= |r| && r[|r| - |s|..] == s
    ensures forall i | 0 <= i < |r| - |s| :: r[i] == pad
  {
    if length <= |s| then s else Repeat(pad, length - |s|) + s
  }

  /** Leading zeros do not change the value of a digit string. */
  lemma {:induction false} LeadingZeros(k: nat, s: Bytes)
    requires AllDigits(s)
    ensures AllDigits(Repeat(Zero, k) + s)
    ensures DigitsValue(Repeat(Zero, k) + s) == DigitsValue(s)
    decreases |s| + k
  {
    var z := Repeat(Zero, k);
    if |s| == 0 {
      assert z + s == z;
      if k > 0 {
        assert z[..k - 1] == Repeat(Zero, k - 1);
        LeadingZeros(k - 1, []);
        assert Repeat(Zero, k - 1) + [] == Repeat(Zero, k - 1);
      }
    } else {
      var init := s[..|s| - 1];
      assert (z + s)[..|z + s| - 1] == z + init;
      LeadingZeros(k, init);
    }
  }

  /**
   * `str_pad((string) ($code % 10 ** $n), $n, "0", STR_PAD_LEFT)`, the last
   * step of both OTP generators.
   */
  function PaddedCode(code: nat, n: nat): (r: Bytes)
    ensures AllDigits(r)
    ensures DigitsValue(r) == code % Pow10(n)
    ensures n >= 1 ==> |r| == n
    ensures n == 0 ==> r == [Zero]
  {
    var digits := ToDecimal(code % Pow10(n));
    var r := StrPadLeft(digits, n, Zero);
    assert n >= 1 ==> |r| == n && DigitsValue(r) == DigitsValue(digits) by {
      if n >= 1 {
        ToDecimalLength(code % Pow10(n), n);
        assert r == Repeat(Zero, n - |digits|) + digits;
        LeadingZeros(n - |digits|, digits);
      }
    }
    r
  }

  /** Digit strings of equal length are equal exactly when their values are. */
  lemma {:induction false} DigitsValueInjective(a: Bytes, b: Bytes)
    requires |a| == |b| && AllDigits(a) && AllDigits(b)
    requires DigitsValue(a) == DigitsValue(b)
    ensures a == b
    decreases |a|
  {
    if |a| > 0 {
      var n := |a| - 1;
      var da, db := DigitValue(a[n]), DigitValue(b[n]);
      var va, vb := DigitsValue(a[..n]), DigitsValue(b[..n]);
      assert DigitsValue(a) == 10 * va + da && DigitsValue(b) == 10 * vb + db;
      Bits.ModUnique(DigitsValue(a), 10, va, da);
      Bits.ModUnique(DigitsValue(b), 10, vb, db);
      DigitsValueInjective(a[..n], b[..n]);
      assert a == a[..n] + [a[n]] && b == b[..n] + [b[n]];
    }
  }
}

=== FILE: hotp.dfy ===
/**
 * Reference definitions from RFC 4226 (HOTP) and RFC 6238 (TOTP), stated
 * arithmetically and independently of how either library revision
 * computes them.
 */
module Hotp {
  import opened Php
  import opened Pack
  import Bits

  /** Section 5.3 of RFC 4226: four bytes read big-endian with the top bit cleared. */
  function Bin31(w: Bytes): (v: nat)
    requires |w| == 4
    ensures v < 0x8000_0000
  {
    (w[0] as int % 128) * 0x100_0000 + w[1] as int * 0x1_0000 + w[2] as int * 0x100 + w[3] as int
  }

  /**
   * Dynamic truncation, section 5.3 of RFC 4226: the offset is the low
   * nibble of the last digest byte, and the value is the 31-bit number at
   * that offset.
   */
  function Truncate(hs: Bytes): nat
    requires |hs| >= 19
  {
    var offset := hs[|hs| - 1] as int % 16;
    Bin31(hs[offset..offset + 4])
  }

  /**
   * The moving factor of section 5.2 of RFC 4226, which section 4 of
   * RFC 6238 fills with the time step: 8 big-endian bytes (the step is
   * taken modulo 2^64).
   */
  function Counter(step: int): (c: Bytes)
    ensures |c| == 8
    ensures UnpackN(c[..4]) * 0x1_0000_0000 + UnpackN(c[4..]) == step % (0x1_0000_0000_0000_0000)
  {
    var t := step % 0x1_0000_0000_0000_0000;
    var hi, lo := t / 0x1_0000_0000, t % 0x1_0000_0000;
    assert t == hi * 0x1_0000_0000 + lo && hi < 0x1_0000_0000;
    Bits.SmallMod(hi, 0x1_0000_0000);
    Bits.SmallMod(lo, 0x1_0000_0000);
    var c := PackN(hi) + PackN(lo);
    assert c[..4] == PackN(hi) && c[4..] == PackN(lo);
    c
  }
}

=== FILE: otpauth.dfy ===
/**
 * The provisioning URI that `Swift2FA::generateQR` hands to the QR
 * renderer: `otpauth://totp/{APP_NAME}:{email}?secret={secret}&issuer={APP_NAME}`,
 * built by plain interpolation. Alongside it, the same URI with every
 * component passed through `rawurlencode`, as the Key URI Format of
 * authenticator apps expects.
 */
module OtpAuth {
  import opened Wrappers
  import opened Php

  const Question: byte := 0x3f   // '?'
  const Percent: byte := 0x25    // '%'

  function Scheme(): (r: Bytes)
    ensures |r| == 15
  {
    Ascii("otpauth://totp/")
  }

  function SecretParam(): (r: Bytes)
    ensures |r| == 8 && r[0] == Question
  {
    Ascii("?secret=")
  }

  function IssuerParam(): (r: Bytes)
    ensures |r| == 8
  {
    Ascii("&issuer=")
  }

  /** String interpolation of a value that may be null (a missing `$_ENV` key, a defaulted parameter): null becomes "". */
  function Interpolate(v: Option<Bytes>): Bytes {
    if v.Some? then v.value else []
  }

  /** `k` is the first position at or after `from` where `s` holds `c`: where a reader splits. */
  predicate FirstAt(s: Bytes, c: byte, from: nat, k: nat) {
    from <= k < |s| && s[k] == c && forall i | from <= i < k :: s[i] != c
  }

  lemma SchemeHasNoQuestion()
    ensures Question !in Scheme()
  {
    var s := Scheme();
    forall i | 0 <= i < |s| ensures s[i] != Question {
      assert s[i] as int == "otpauth://totp/"[i] as int;
    }
  }

  /** The pieces of `p + a + ":" + e + t`, read back by position. */
  lemma LabelParts(p: Bytes, a: Bytes, e: Bytes, t: Bytes)
    ensures var r, k := p + a + [Colon] + e + t, |p| + |a|;
      k + 1 + |e| <= |r|
      && r[..|p|] == p && r[|p|..k] == a && r[k] == Colon
      && r[k + 1..k + 1 + |e|] == e && r[k + 1 + |e|..] == t
  {
    var r, k := p + a + [Colon] + e + t, |p| + |a|;
    assert r == (p + a) + ([Colon] + e + t);
    assert r[..k] == p + a;
    assert r[k..] == [Colon] + e + t;
    assert r[k + 1..] == e + t;
  }

  /** After `p`, the first ':' of `p + a + ":" + e + t` ends `a` when `a` holds none. */
  lemma LabelColon(p: Bytes, a: Bytes, e: Bytes, t: Bytes)
    requires Colon !in a
    ensures FirstAt(p + a + [Colon] + e + t, Colon, |p|, |p| + |a|)
  {
    var r, k := p + a + [Colon] + e + t, |p| + |a|;
    LabelParts(p, a, e, t);
    forall i | |p| <= i < k ensures r[i] != Colon {
      assert r[i] == r[|p|..k][i - |p|];
    }
  }

  /** The first '?' of `p + a + ":" + e + t` opens `t` when `t` starts with one and nothing before holds any. */
  lemma LabelQuestion(p: Bytes, a: Bytes, e: Bytes, t: Bytes)
    requires Question !in p && Question !in a && Question !in e
    requires |t| > 0 && t[0] == Question
    ensures FirstAt(p + a + [Colon] + e + t, Question, 0, |p| + |a| + 1 + |e|)
  {
    var r, k := p + a + [Colon] + e + t, |p| + |a|;
    LabelParts(p, a, e, t);
    forall i | 0 <= i < k + 1 + |e| ensures r[i] != Question {
      if i < |p| {
        assert r[i] == r[..|p|][i];
      } else if i < k {
        assert r[i] == r[|p|..k][i - |p|];
      } else if i > k {
        assert r[i] == r[k + 1..k + 1 + |e|][i - k - 1];
      }
    }
    assert r[k + 1 + |e|] == r[k + 1 + |e|..][0];
  }

  /**
   * The URI as written: no component is escaped. It reads back as the
   * scheme, the application name, ':', the email, then the query
   * `?secret=<secret>&issuer=<name>`. A reader splits the label at the
   * first ':' after the scheme and the query at the first '?'; those land
   * at the ends of the application name and the email only while the name
   * holds no ':' and neither holds a '?'.
   */
  function ProvisioningUri(appName: Option<Bytes>, email: Bytes, secret: Option<Bytes>): (r: Bytes)
    ensures var app := Interpolate(appName);
      Colon !in app ==> FirstAt(r, Colon, |Scheme()|, |Scheme()| + |app|)
    ensures var app := Interpolate(appName);
      Question !in app && Question !in email ==> FirstAt(r, Question, 0, |Scheme()| + |app| + 1 + |email|)
    ensures var app := Interpolate(appName); var k := |Scheme()| + |app|;
      k + 1 + |email| <= |r|
      && r[..|Scheme()|] == Scheme() && r[|Scheme()|..k] == app && r[k] == Colon
      && r[k + 1..k + 1 + |email|] == email
      && r[k + 1 + |email|..] == SecretParam() + Interpolate(secret) + IssuerParam() + app
  {
    var app := Interpolate(appName);
    var t := SecretParam() + Interpolate(secret) + IssuerParam() + app;
    var r := Scheme() + app + [Colon] + email + t;
    LabelParts(Scheme(), app, email, t);
    var clean := Question !in app && Question !in email;
    if Colon !in app && clean then
      LabelColon(Scheme(), app, email, t);
      SchemeHasNoQuestion();
      LabelQuestion(Scheme(), app, email, t);
      r
    else if Colon !in app then
      LabelColon(Scheme(), app, email, t);
      r
    else if clean then
      SchemeHasNoQuestion();
      LabelQuestion(Scheme(), app, email, t);
      r
    else r
  }

  /** A byte has one first occurrence after a given position. */
  lemma FirstAtUnique(s: Bytes, c: byte, from: nat, k1: nat, k2: nat)
    requires FirstAt(s, c, from, k1) && FirstAt(s, c, from, k2)
    ensures k1 == k2
  {
    if k1 < k2 {
      assert s[k1] != c;
    } else if k2 < k1 {
      assert s[k2] != c;
    }
  }

  /** After the label's ':', the first '?' ends a '?'-free email followed by the query. */
  lemma QueryAfterEmail(u: Bytes, k: nat, e: Bytes, t: Bytes)
    requires k + 1 + |e| <= |u| && u[k + 1..k + 1 + |e|] == e && u[k + 1 + |e|..] == t
    requires Question !in e && |t| > 0 && t[0] == Question
    ensures FirstAt(u, Question, k + 1, k + 1 + |e|)
  {
    forall i | k + 1 <= i < k + 1 + |e| ensures u[i] != Question {
      assert u[i] == u[k + 1..k + 1 + |e|][i - k - 1];
    }
    assert u[k + 1 + |e|] == u[k + 1 + |e|..][0];
  }

  lemma DropMiddle(p: Bytes, x: Bytes, q: Bytes, a: Bytes, y: Bytes)
    requires p + x + q + a == p + y + q + a
    ensures x == y
  {
    assert |x| == |y|;
    assert x == (p + x + q + a)[|p|..|p| + |x|];
    assert y == (p + y + q + a)[|p|..|p| + |y|];
  }

  /**
   * As written, the URI determines its three fields only when the
   * application name holds no ':' and the email no '?'.
   */
  lemma UriDeterminesCleanFields(app1: Bytes, email1: Bytes, secret1: Bytes, app2: Bytes, email2: Bytes, secret2: Bytes)
    requires Colon !in app1 && Colon !in app2
    requires Question !in email1 && Question !in email2
    requires ProvisioningUri(Some(app1), email1, Some(secret1)) == ProvisioningUri(Some(app2), email2, Some(secret2))
    ensures app1 == app2 && email1 == email2 && secret1 == secret2
  {
    var a1, a2 := Interpolate(Some(app1)), Interpolate(Some(app2));
    var s1, s2 := Interpolate(Some(secret1)), Interpolate(Some(secret2));
    var t1, t2 := SecretParam() + s1 + IssuerParam() + a1, SecretParam() + s2 + IssuerParam() + a2;
    UriUnfold(Some(app1), email1, Some(secret1));
    UriUnfold(Some(app2), email2, Some(secret2));
    CleanLabelSplit(Scheme(), a1, email1, t1, a2, email2, t2);
    DropMiddle(SecretParam(), s1, IssuerParam(), a1, s2);
  }

  /** Two labels `x + a + ":" + e + t` with ':'-free names, '?'-free emails and queries opening with '?' split alike. */
  lemma CleanLabelSplit(x: Bytes, a1: Bytes, e1: Bytes, t1: Bytes, a2: Bytes, e2: Bytes, t2: Bytes)
    requires Colon !in a1 && Colon !in a2 && Question !in e1 && Question !in e2
    requires |t1| > 0 && t1[0] == Question && |t2| > 0 && t2[0] == Question
    requires x + a1 + [Colon] + e1 + t1 == x + a2 + [Colon] + e2 + t2
    ensures a1 == a2 && e1 == e2 && t1 == t2
  {
    var u, n := x + a1 + [Colon] + e1 + t1, |x|;
    var k1, k2 := n + |a1|, n + |a2|;
    LabelParts(x, a1, e1, t1);
    LabelParts(x, a2, e2, t2);
    LabelColon(x, a1, e1, t1);
    LabelColon(x, a2, e2, t2);
    FirstAtUnique(u, Colon, n, k1, k2);
    QueryAfterEmail(u, k1, e1, t1);
    QueryAfterEmail(u, k2, e2, t2);
    FirstAtUnique(u, Question, k1 + 1, k1 + 1 + |e1|, k2 + 1 + |e2|);
  }

  /**
   * As written, the URI is ambiguous: moving "?secret=" and what follows
   * from the end of the email to the front of the secret gives the same
   * URI for a different account.
   */
  lemma UriAmbiguous(app: Option<Bytes>, email: Bytes, extra: Bytes, secret: Bytes)
    ensures email + SecretParam() + extra != email
    ensures ProvisioningUri(app, email + SecretParam() + extra, Some(secret))
         == ProvisioningUri(app, email, Some(extra + SecretParam() + secret))
  {
    var a, p := Interpolate(app), SecretParam();
    var moved := extra + p + secret;
    UriUnfold(app, email + p + extra, Some(secret));
    UriUnfold(app, email, Some(moved));
    Regroup(Scheme() + a + [Colon], email, p, extra, secret, IssuerParam(), a);
  }

  lemma UriUnfold(appName: Option<Bytes>, email: Bytes, secret: Option<Bytes>)
    ensures var a := Interpolate(appName);
      ProvisioningUri(appName, email, secret)
        == Scheme() + a + [Colon] + email + (SecretParam() + Interpolate(secret) + IssuerParam() + a)
  {
  }

  /** Moving `p + m` from the end of the email to the front of the secret. */
  lemma Regroup(x: Bytes, e: Bytes, p: Bytes, m: Bytes, s: Bytes, q: Bytes, a: Bytes)
    ensures x + (e + p + m) + (p + s + q + a) == x + e + (p + (m + p + s) + q + a)
  {
    calc {
      x + (e + p + m) + (p + s + q + a);
      x + e + p + m + p + s + q + a;
      x + e + (p + (m + p + s) + q + a);
    }
  }

  /** RFC 3986 unreserved characters, which `rawurlencode` leaves as they are. */
  predicate IsUnreserved(b: byte) {
    var v := b as int;
    (0x41 <= v <= 0x5a) || (0x61 <= v <= 0x7a) || (0x30 <= v <= 0x39) || v == 0x2d || v == 0x2e || v == 0x5f || v == 0x7e
  }

  /** The upper-case hexadecimal digit for a nibble. */
  function HexDigit(n: nat): (c: byte)
    requires n < 16
    ensures IsUnreserved(c)
  {
    if n < 10 then Chr(0x30 + n) else Chr(0x41 + n - 10)
  }

  predicate IsHex(c: byte) {
    var v := c as int;
    (0x30 <= v <= 0x39) || (0x41 <= v <= 0x46) || (0x61 <= v <= 0x66)
  }

  /** The value of a hexadecimal digit of either case. */
  function HexValue(c: byte): (n: nat)
    requires IsHex(c)
    ensures n < 16
  {
    var v := c as int;
    if v <= 0x39 then v - 0x30 else if v <= 0x46 then v - 0x41 + 10 else v - 0x61 + 10
  }

  lemma HexDigitValue(n: nat)
    requires n < 16
    ensures IsHex(HexDigit(n)) && HexValue(HexDigit(n)) == n
  {
  }

  /** One byte under `rawurlencode`: itself if unreserved, else '%' and two hex digits. */
  function EncodeByte(b: byte): (r: Bytes)
    ensures forall i | 0 <= i < |r| :: IsUnreserved(r[i]) || r[i] == Percent
  {
    if IsUnreserved(b) then [b] else [Percent, HexDigit(b as int / 16), HexDigit(b as int % 16)]
  }

  /** `rawurlencode($s)`: only unreserved characters and '%' remain. */
  function RawUrlEncode(s: Bytes): (r: Bytes)
    ensures forall i | 0 <= i < |r| :: IsUnreserved(r[i]) || r[i] == Percent
  {
    if s == [] then [] else EncodeByte(s[0]) + RawUrlEncode(s[1..])
  }

  /** `rawurldecode($s)`: each '%' followed by two hex digits becomes that byte. */
  function RawUrlDecode(s: Bytes): (r: Bytes)
    ensures |r| <= |s|
  {
    if s == [] then []
    else if |s| >= 3 && s[0] == Percent && IsHex(s[1]) && IsHex(s[2]) then
      [Chr(HexValue(s[1]) * 16 + HexValue(s[2]))] + RawUrlDecode(s[3..])
    else [s[0]] + RawUrlDecode(s[1..])
  }

  lemma ByteOfNibbles(b: byte, hi: nat, lo: nat)
    requires hi == b as int / 16 && lo == b as int % 16
    ensures hi < 16 && lo < 16 && Chr(hi * 16 + lo) == b
  {
  }

  lemma DecodeEscape(h1: byte, h2: byte, t: Bytes)
    requires IsHex(h1) && IsHex(h2)
    ensures RawUrlDecode([Percent, h1, h2] + t) == [Chr(HexValue(h1) * 16 + HexValue(h2))] + RawUrlDecode(t)
  {
    assert ([Percent, h1, h2] + t)[3..] == t;
  }

  lemma DecodeEscapedByte(b: byte, t: Bytes)
    requires !IsUnreserved(b)
    ensures RawUrlDecode(EncodeByte(b) + t) == [b] + RawUrlDecode(t)
  {
    var hi, lo := b as int / 16, b as int % 16;
    ByteOfNibbles(b, hi, lo);
    HexDigitValue(hi);
    HexDigitValue(lo);
    assert EncodeByte(b) == [Percent, HexDigit(hi), HexDigit(lo)];
    DecodeEscape(HexDigit(hi), HexDigit(lo), t);
  }

  lemma DecodeEncodedByte(b: byte, t: Bytes)
    ensures RawUrlDecode(EncodeByte(b) + t) == [b] + RawUrlDecode(t)
  {
    if IsUnreserved(b) {
      assert (EncodeByte(b) + t)[1..] == t;
    } else {
      DecodeEscapedByte(b, t);
    }
  }

  /** `rawurldecode(rawurlencode($s)) === $s`. */
  lemma {:induction false} UrlRoundTrip(s: Bytes)
    ensures RawUrlDecode(RawUrlEncode(s)) == s
  {
    if s != [] {
      DecodeEncodedByte(s[0], RawUrlEncode(s[1..]));
      UrlRoundTrip(s[1..]);
      assert s == [s[0]] + s[1..];
    }
  }

  /** Escaped text holds neither ':' nor '?'. */
  lemma EncodedHasNoSeparators(s: Bytes)
    ensures Colon !in RawUrlEncode(s) && Question !in RawUrlEncode(s)
  {
  }

  /**
   * The corrected URI: every interpolated component is `rawurlencode`d, so
   * for every input the first ':' after the scheme ends the encoded
   * application name and the first '?' ends the encoded email.
   */
  function EncodedProvisioningUri(appName: Option<Bytes>, email: Bytes, secret: Option<Bytes>): (r: Bytes)
    ensures var app := RawUrlEncode(Interpolate(appName));
      FirstAt(r, Colon, |Scheme()|, |Scheme()| + |app|)
    ensures var app := RawUrlEncode(Interpolate(appName));
      FirstAt(r, Question, 0, |Scheme()| + |app| + 1 + |RawUrlEncode(email)|)
    ensures var app, e := RawUrlEncode(Interpolate(appName)), RawUrlEncode(email); var k := |Scheme()| + |app|;
      k + 1 + |e| <= |r|
      && r[..|Scheme()|] == Scheme() && r[|Scheme()|..k] == app && r[k] == Colon
      && r[k + 1..k + 1 + |e|] == e
      && r[k + 1 + |e|..] == SecretParam() + RawUrlEncode(Interpolate(secret)) + IssuerParam() + app
  {
    var app, e, s := RawUrlEncode(Interpolate(appName)), RawUrlEncode(email), RawUrlEncode(Interpolate(secret));
    var t := SecretParam() + s + IssuerParam() + app;
    EncodedHasNoSeparators(Interpolate(appName));
    EncodedHasNoSeparators(email);
    SchemeHasNoQuestion();
    LabelParts(Scheme(), app, e, t);
    LabelColon(Scheme(), app, e, t);
    LabelQuestion(Scheme(), app, e, t);
    Scheme() + app + [Colon] + e + t
  }

  lemma EncodedIsInterpolated(app: Bytes, email: Bytes, secret: Bytes)
    ensures EncodedProvisioningUri(Some(app), email, Some(secret))
         == ProvisioningUri(Some(RawUrlEncode(app)), RawUrlEncode(email), Some(RawUrlEncode(secret)))
  {
  }

  /** Corrected: for every input, the URI determines the application name, the email and the secret. */
  lemma EncodedUriDeterminesFields(app1: Bytes, email1: Bytes, secret1: Bytes, app2: Bytes, email2: Bytes, secret2: Bytes)
    requires EncodedProvisioningUri(Some(app1), email1, Some(secret1)) == EncodedProvisioningUri(Some(app2), email2, Some(secret2))
    ensures app1 == app2 && email1 == email2 && secret1 == secret2
  {
    var a1, e1, s1 := RawUrlEncode(app1), RawUrlEncode(email1), RawUrlEncode(secret1);
    var a2, e2, s2 := RawUrlEncode(app2), RawUrlEncode(email2), RawUrlEncode(secret2);
    EncodedIsInterpolated(app1, email1, secret1);
    EncodedIsInterpolated(app2, email2, secret2);
    EncodedHasNoSeparators(app1); EncodedHasNoSeparators(app2);
    EncodedHasNoSeparators(email1); EncodedHasNoSeparators(email2);
    UriDeterminesCleanFields(a1, e1, s1, a2, e2, s2);
    UrlRoundTrip(app1); UrlRoundTrip(app2);
    UrlRoundTrip(email1); UrlRoundTrip(email2);
    UrlRoundTrip(secret1); UrlRoundTrip(secret2);
  }

  /** Text made only of unreserved characters, such as a base32 secret without padding, is not changed by the correction. */
  lemma {:induction false} EncodeKeepsUnreserved(s: Bytes)
    requires forall i | 0 <= i < |s| :: IsUnreserved(s[i])
    ensures RawUrlEncode(s) == s
  {
    if s != [] {
      EncodeKeepsUnreserved(s[1..]);
      assert s == [s[0]] + s[1..];
    }
  }
}

=== FILE: pack.dfy ===
/** `pack("N", ...)` and `unpack("N", ...)`: 32-bit unsigned big-endian integers. */
module Pack {
  import opened Php
  import Bits


  /** `unpack("N", $w)[1]`: the unsigned big-endian value of four bytes. */
  function UnpackN(w: Bytes): (v: nat)
    requires |w| == 4
    ensures v < 0x1_0000_0000
  {
    w[0] as int * 0x100_0000 + w[1] as int * 0x1_0000 + w[2] as int * 0x100 + w[3] as int
  }

  /**
   * `pack("N", $x)`: the low 32 bits of `$x` (two's complement for a
   * negative `$x`) as four big-endian bytes.
   */
  function PackN(x: int): (w: Bytes)
    ensures |w| == 4
    ensures UnpackN(w) == x % 0x1_0000_0000
  {
    var v := x % 0x1_0000_0000;
    var hi := v / 0x1_0000;
    var lo := v % 0x1_0000;
    var w := [Chr(hi / 0x100), Chr(hi % 0x100), Chr(lo / 0x100), Chr(lo % 0x100)];
    assert UnpackN(w) == (hi / 0x100 * 0x100 + hi % 0x100) * 0x1_0000 + (lo / 0x100 * 0x100 + lo % 0x100);
    w
  }

  lemma ChrOrd(b: byte)
    ensures Chr(b as int) == b
  {
  }

  /** Packing a value written with four base-256 digits gives those digits. */
  lemma PackDigits(a: nat, b: nat, c: nat, d: nat)
    requires a < 0x100 && b < 0x100 && c < 0x100 && d < 0x100
    ensures PackN(a * 0x100_0000 + b * 0x1_0000 + c * 0x100 + d) == [Chr(a), Chr(b), Chr(c), Chr(d)]
  {
    var v := a * 0x100_0000 + b * 0x1_0000 + c * 0x100 + d;
    var hi, lo := a * 0x100 + b, c * 0x100 + d;
    assert v % 0x1_0000_0000 == v;
    assert v / 0x1_0000 == hi && v % 0x1_0000 == lo by {
      Bits.ModUnique(v, 0x1_0000, hi, lo);
    }
    assert hi / 0x100 == a && hi % 0x100 == b by {
      Bits.ModUnique(hi, 0x100, a, b);
    }
    assert lo / 0x100 == c && lo % 0x100 == d by {
      Bits.ModUnique(lo, 0x100, c, d);
    }
    assert PackN(v) == [Chr(hi / 0x100), Chr(hi % 0x100), Chr(lo / 0x100), Chr(lo % 0x100)];
  }

  /** Reading four bytes and packing the value again gives the same four bytes. */
  lemma UnpackPack(w: Bytes)
    requires |w| == 4
    ensures PackN(UnpackN(w)) == w
  {
    PackDigits(w[0] as int, w[1] as int, w[2] as int, w[3] as int);
    ChrOrd(w[0]); ChrOrd(w[1]); ChrOrd(w[2]); ChrOrd(w[3]);
    assert w == [w[0], w[1], w[2], w[3]];
  }

  /** Four-byte strings with the same unpacked value are equal. */
  lemma UnpackInjective(w1: Bytes, w2: Bytes)
    requires |w1| == 4 && |w2| == 4 && UnpackN(w1) == UnpackN(w2)
    ensures w1 == w2
  {
    UnpackPack(w1);
    UnpackPack(w2);
  }
}

=== FILE: php.dfy ===
/**
 * The parts of the PHP runtime that the two library revisions rely on:
 * byte strings, truthiness, integer division and powers, and the
 * exceptions the modelled methods can throw.
 */
module Php {
  import opened Wrappers

  /** A PHP string is a sequence of bytes. */
  type byte = bv8
  type Bytes = seq<byte>

  ghost predicate IsAscii(s: string) {
    forall i | 0 <= i < |s| :: s[i] as int < 128
  }

  /** The bytes of an ASCII string literal. */
  function Ascii(s: string): (r: Bytes)
    requires IsAscii(s)
    ensures |r| == |s|
    ensures forall i | 0 <= i < |s| :: r[i] as int == s[i] as int
  {
    seq(|s|, i requires 0 <= i < |s| => Chr(s[i] as int))
  }

  /** A byte holding a value below 16, chosen by comparisons alone. */
  function Nibble(n: int): (b: byte)
    requires 0 <= n < 16
    ensures b as int == n
  {
    if n < 8 then
      (if n < 4 then (if n < 2 then (if n == 0 then 0 else 1) else (if n == 2 then 2 else 3))
       else (if n < 6 then (if n == 4 then 4 else 5) else (if n == 6 then 6 else 7)))
    else
      (if n < 12 then (if n < 10 then (if n == 8 then 8 else 9) else (if n == 10 then 10 else 11))
       else (if n < 14 then (if n == 12 then 12 else 13) else (if n == 14 then 14 else 15)))
  }

  /** `chr($n)` for 0 <= n < 256, the inverse of `ord`, assembled from its two nibbles. */
  function Chr(n: int): (b: byte)
    requires 0 <= n < 256
    ensures b as int == n
  {
    Nibble(n / 16) * 16 + Nibble(n % 16)
  }

  const Colon: byte := 0x3a      // ':'
  const Zero: byte := 0x30       // '0'

  /** `count` copies of `b`. */
  function Repeat(b: byte, count: nat): (r: Bytes)
    ensures |r| == count
    ensures forall i | 0 <= i < count :: r[i] == b
  {
    seq(count, _ => b)
  }

  /** `rtrim($s, $c)` for a single character `$c`: drops every trailing `$c`. */
  function RTrim(s: Bytes, c: byte): (r: Bytes)
    ensures |r| <= |s| && r == s[..|r|]
    ensures |r| == 0 || r[|r| - 1] != c
    ensures forall i | |r| <= i < |s| :: s[i] == c
    decreases |s|
  {
    if |s| > 0 && s[|s| - 1] == c then RTrim(s[..|s| - 1], c) else s
  }

  /** Trimming undoes appending copies of `c` to a string that does not end in `c`. */
  lemma RTrimAppended(x: Bytes, c: byte, k: nat)
    requires |x| == 0 || x[|x| - 1] != c
    ensures RTrim(x + Repeat(c, k), c) == x
  {
    var s := x + Repeat(c, k);
    assert s[..|x|] == x;
  }

  /** `sep` occurs in `s` starting at position `i`. */
  predicate OccursAt(s: Bytes, sep: Bytes, i: nat) {
    i + |sep| <= |s| && s[i..i + |sep|] == sep
  }

  /** The first position at or after `from` where `sep` occurs in `s`. */
  function IndexOf(s: Bytes, sep: Bytes, from: nat): (r: Option<nat>)
    ensures r.Some? ==> from <= r.value && OccursAt(s, sep, r.value)
    ensures r.Some? ==> forall j | from <= j < r.value :: !OccursAt(s, sep, j)
    ensures r.None? ==> forall j: nat | from <= j :: !OccursAt(s, sep, j)
    decreases |s| - from
  {
    if from + |sep| > |s| then None
    else if OccursAt(s, sep, from) then Some(from)
    else IndexOf(s, sep, from + 1)
  }

  /**
   * `explode($sep, $s, 2)`: `[$s]` when `$sep` does not occur, otherwise
   * the bytes before its first occurrence and everything after it.
   * (An empty `$sep` throws in PHP; the library only uses "::".)
   */
  function Explode2(sep: Bytes, s: Bytes): (parts: seq<Bytes>)
    requires |sep| > 0
    ensures |parts| == 1 || |parts| == 2
    ensures |parts| == 1 <==> forall j: nat :: !OccursAt(s, sep, j)
    ensures |parts| == 1 ==> parts[0] == s
    ensures |parts| == 2 ==> s == parts[0] + sep + parts[1]
    ensures |parts| == 2 ==> forall j | 0 <= j < |parts[0]| :: !OccursAt(s, sep, j)
  {
    match IndexOf(s, sep, 0)
    case None => [s]
    case Some(i) =>
      assert s == s[..i] + sep + s[i + |sep|..];
      [s[..i], s[i + |sep|..]]
  }

  /**
   * PHP truthiness of a value that is a string or `null`/`false`
   * (`None`): `null`, `false`, "" and "0" are falsy. The loose test
   * `$x == false` is true exactly for the falsy values.
   */
  predicate IsTruthy(v: Option<Bytes>) {
    v.Some? && v.value != [] && v.value != [Zero]
  }

  /**
   * `floor($a / $b)` for integers: `/` throws DivisionByZeroError on a
   * zero divisor, otherwise the quotient is rounded toward minus infinity.
   */
  function FloorDiv(a: int, b: int): (q: int)
    requires b != 0
    ensures b > 0 ==> b * q <= a < b * q + b
    ensures b < 0 ==> b * q >= a > b * q + b
  {
    if b > 0 then a / b else (-a) / (-b)
  }

  /** `10 ** $n` for a non-negative exponent. */
  function Pow10(n: nat): (p: nat)
    ensures p >= 1
  {
    if n == 0 then 1 else 10 * Pow10(n - 1)
  }

  /** What the modelled methods throw instead of returning. */
  datatype Error =
    | DivisionByZero        // `/` by a zero time step
    | ModuloByZero          // `%` by `10 ** $codeLength` with a negative length, which converts to 0
    | InvalidBase32         // the base32 decoder rejects the secret
    | MissingEncryptionKey  // no ENCRYPTION_KEY in the environment
    | EncryptionFailed      // `openssl_encrypt` gave a falsy result
    | MalformedBlob         // the decoded blob holds no "::", so the IV is null (TypeError)
    | DecryptionFailed      // `openssl_decrypt` returned false
}

=== FILE: s2fa.dfy ===
/**
 * The older revision, class `S2FA`: a secret kept if truthy or made from
 * 10 random bytes in base64, an HMAC-SHA256 code over a 4-byte counter
 * with a fixed 30-second step, and an `encryptKey` that frames the
 * ciphertext like the newer revision but under a random key it then
 * discards, without checking for failure.
 */
module S2fa {
  import opened Wrappers
  import opened Php
  import opened Bits
  import opened Pack
  import opened Decimal
  import opened Crypto
  import Base64
  import Hotp
  import Totp
  import Vault

  /** The object's two fields. */
  datatype Authenticator = Authenticator(secretKey: Bytes, codeLength: int)

  /** `random_bytes(10)`, for both the secret and the encryption key. */
  const RandomLength: nat := 10

  /**
   * `new S2FA($secretKey, $codeLength)`: `$secretKey ? $secretKey :
   * base64_encode(random_bytes(10))`, so null, "" and "0" are all replaced.
   */
  function New(secretKey: Option<Bytes>, codeLength: int, randomBytes: Bytes): (r: Authenticator)
    requires |randomBytes| == RandomLength
    ensures r.codeLength == codeLength
    ensures IsTruthy(secretKey) ==> r.secretKey == secretKey.value
    ensures !IsTruthy(secretKey) ==> |r.secretKey| == 16 && Base64.DecodeLoose(r.secretKey) == randomBytes
    ensures !IsTruthy(secretKey) ==> r.secretKey == Base64.Encode(randomBytes)
  {
    Base64.LooseRoundTrip(randomBytes);
    Authenticator(if IsTruthy(secretKey) then secretKey.value else Base64.Encode(randomBytes), codeLength)
  }

  /** `pack("N*", floor(time() / 30))`: four bytes, the step modulo 2^32. */
  function CounterMessage(now: nat): (m: Bytes)
    ensures |m| == 4 && UnpackN(m) == (now / 30) % 0x1_0000_0000
  {
    PackN(now / 30)
  }

  /** The 4-byte counter repeats after 2^32 steps, as the newer revision's does. */
  lemma CounterWraps(now: nat)
    ensures CounterMessage(now + 30 * 0x1_0000_0000) == CounterMessage(now)
  {
    var q, later := now / 30, now + 30 * 0x1_0000_0000;
    assert later / 30 == q + 0x1_0000_0000 by {
      assert now == 30 * q + now % 30;
      ModUnique(later, 30, q + 0x1_0000_0000, now % 30);
    }
    assert (q + 0x1_0000_0000) % 0x1_0000_0000 == q % 0x1_0000_0000 by {
      assert q == 0x1_0000_0000 * (q / 0x1_0000_0000) + q % 0x1_0000_0000;
      ModUnique(q + 0x1_0000_0000, 0x1_0000_0000, q / 0x1_0000_0000 + 1, q % 0x1_0000_0000);
    }
    var m1, m2 := CounterMessage(later), CounterMessage(now);
    assert UnpackN(m1) == UnpackN(m2);
    UnpackInjective(m1, m2);
  }

  /** `unpack("N", $w)[1] & 0x7fffffff` is the 31-bit value of RFC 4226. */
  lemma UnpackMasked(w: Bytes)
    requires |w| == 4
    ensures BitAnd(UnpackN(w), 0x7fff_ffff) == Hotp.Bin31(w)
  {
    Mask31(UnpackN(w));
    var a := w[0] as int;
    var rest := w[1] as int * 0x1_0000 + w[2] as int * 0x100 + w[3] as int;
    assert a == 128 * (a / 128) + a % 128;
    assert UnpackN(w) == 0x8000_0000 * (a / 128) + Hotp.Bin31(w);
    ModUnique(UnpackN(w), 0x8000_0000, a / 128, Hotp.Bin31(w));
  }

  /**
   * Dynamic truncation as this revision writes it: the offset from the
   * last byte (`substr($hash, -1)`), the four bytes `substr($hash,
   * $offset, 4)`, unpacked and masked with 0x7fffffff.
   */
  function Truncate(hash: Digest32): (code: nat)
    ensures code < 0x8000_0000
    ensures code == Hotp.Truncate(hash)
  {
    MaskNibble(hash[31] as int);
    var offset := BitAnd(hash[31] as int, 0x0f);
    var w := hash[offset..offset + 4];
    UnpackMasked(w);
    BitAnd(UnpackN(w), 0x7fff_ffff)
  }

  /**
   * The two revisions truncate alike: for any four bytes, the unpack-and-mask
   * form equals the shift-and-OR form with the first byte masked by 0x7f.
   */
  lemma TruncationForms(w: Bytes)
    requires |w| == 4
    ensures BitAnd(UnpackN(w), 0x7fff_ffff)
         == BitOr(BitOr(BitOr(Shl(BitAnd(w[0] as int, 0x7f), 24), Shl(BitAnd(w[1] as int, 0xff), 16)),
                        Shl(BitAnd(w[2] as int, 0xff), 8)), BitAnd(w[3] as int, 0xff))
  {
    var a, b, c, d := w[0] as int, w[1] as int, w[2] as int, w[3] as int;
    UnpackMasked(w);
    Totp.ShiftOrAssembly(a, b, c, d);
    assert Hotp.Bin31(w) == (a % 128) * 0x100_0000 + b * 0x1_0000 + c * 0x100 + d;
  }

  /**
   * `generateOTP()` at Unix time `now`: HMAC-SHA256 keyed by
   * `base64_decode` of the secret, truncated, reduced modulo
   * 10^codeLength and left-padded with '0'. A negative code length makes
   * `10 ** $n` a float below 1, and `%` by it throws.
   */
  function GenerateOtp(hmac: HmacSha256, a: Authenticator, now: nat): (r: Result<Bytes, Error>)
    ensures r.Err? <==> a.codeLength < 0
    ensures r.Err? ==> r.error == ModuloByZero
    ensures r.Ok? ==> AllDigits(r.value)
    ensures r.Ok? && a.codeLength >= 1 ==> |r.value| == a.codeLength
    ensures r.Ok? && a.codeLength == 0 ==> r.value == [Zero]
    ensures r.Ok? ==>
      DigitsValue(r.value)
      == Hotp.Truncate(hmac(Base64.DecodeLoose(a.secretKey), CounterMessage(now))) % Pow10(a.codeLength)
  {
    var code := Truncate(hmac(Base64.DecodeLoose(a.secretKey), CounterMessage(now)));
    if a.codeLength < 0 then Err(ModuloByZero) else Ok(PaddedCode(code, a.codeLength))
  }

  /** A generated secret keys the HMAC with exactly the random bytes it was made from. */
  lemma GeneratedSecretKeysHmac(hmac: HmacSha256, secretKey: Option<Bytes>, codeLength: int, randomBytes: Bytes, now: nat)
    requires |randomBytes| == RandomLength && !IsTruthy(secretKey) && codeLength >= 0
    ensures
      var r := GenerateOtp(hmac, New(secretKey, codeLength, randomBytes), now);
      r.Ok? && DigitsValue(r.value) == Hotp.Truncate(hmac(randomBytes, CounterMessage(now))) % Pow10(codeLength)
  {
  }

  /**
   * `encryptKey()`: the secret encrypted under `base64_decode(base64_encode(
   * random_bytes(10)))`, framed as `$encryptedSecret . "::" . $iv` and
   * base64-encoded. Nothing checks the cipher result: false concatenates
   * as "", leaving only the separator and the IV.
   */
  function EncryptKey(c: Aes256Cbc, a: Authenticator, randomKey: Bytes, iv: Bytes): (blob: Bytes)
    requires |randomKey| == RandomLength && |iv| == IvLength
    ensures
      var raw := c.encrypt(randomKey, iv, a.secretKey);
      raw.None? ==> Base64.DecodeLoose(blob) == Vault.Frame([], iv)
    ensures
      var raw := c.encrypt(randomKey, iv, a.secretKey);
      raw.Some? ==> exists ciphertext ::
        Vault.Unframe(Base64.DecodeLoose(blob)) == Ok((ciphertext, iv)) && Base64.DecodeStrict(ciphertext) == raw
    ensures blob == Base64.Encode(Base64.DecodeLoose(blob))
    ensures
      var encrypted := OpensslEncrypt(c, a.secretKey, randomKey, iv);
      Base64.DecodeLoose(blob) == Vault.Frame(if encrypted.Some? then encrypted.value else [], iv)
  {
    var key := Base64.DecodeLoose(Base64.Encode(randomKey));
    Base64.LooseRoundTrip(randomKey);
    var encrypted := OpensslEncrypt(c, a.secretKey, key, iv);
    var ciphertext := if encrypted.Some? then encrypted.value else [];
    Base64.LooseRoundTrip(Vault.Frame(ciphertext, iv));
    if encrypted.Some? then Vault.UnframeFrame(ciphertext, iv); Base64.Encode(Vault.Frame(ciphertext, iv))
    else Base64.Encode(Vault.Frame(ciphertext, iv))
  }

  /**
   * The blob has the newer revision's format: given the discarded key,
   * `Swift2FA::decryptKey` would recover the secret from it.
   */
  lemma BlobReadableByNewerRevision(c: Aes256Cbc, a: Authenticator, randomKey: Bytes, iv: Bytes)
    requires DecryptInvertsEncrypt(c)
    requires |randomKey| == RandomLength && |iv| == IvLength
    requires c.encrypt(randomKey, iv, a.secretKey).Some?
    ensures Vault.DecryptKey(c, Base64.Encode(randomKey), EncryptKey(c, a, randomKey, iv)) == Ok(a.secretKey)
  {
    Base64.LooseRoundTrip(randomKey);
    var ciphertext := OpensslEncrypt(c, a.secretKey, randomKey, iv).value;
    Base64.LooseRoundTrip(Vault.Frame(ciphertext, iv));
    Vault.UnframeFrame(ciphertext, iv);
    OpensslRoundTrip(c, a.secretKey, randomKey, iv);
  }
}

=== FILE: swift2fa.dfy ===
/**
 * The `Swift2FA` object of the newer revision: its constructor, which
 * keeps a supplied secret or base32-encodes 32 random bytes and reads
 * `ENCRYPTION_KEY` from the environment, and `GetSecreteKey`. The random
 * bytes and the environment value are parameters.
 */
module Swift2Fa {
  import opened Wrappers
  import opened Php
  import opened Crypto
  import Base32
  import Decimal
  import Hotp
  import Totp
  import Vault

  /** The object's two fields: the TOTP secret (base32 text) and the encryption key. */
  datatype Authenticator = Authenticator(secretKey: Bytes, encryptionKey: Bytes)

  /** `random_bytes(32)`. */
  const RandomSecretLength: nat := 32

  /**
   * `new Swift2FA($secretKey)` with `$_ENV["ENCRYPTION_KEY"]` given as `env`.
   * A null secret is replaced by the base32 text of `randomBytes`; a
   * missing key throws.
   */
  function New(secretKey: Option<Bytes>, randomBytes: Bytes, env: Option<Bytes>): (r: Result<Authenticator, Error>)
    requires |randomBytes| == RandomSecretLength
    ensures r.Err? <==> env.None?
    ensures r.Err? ==> r.error == MissingEncryptionKey
    ensures r.Ok? ==> r.value.encryptionKey == env.value
    ensures r.Ok? && secretKey.Some? ==> r.value.secretKey == secretKey.value
    ensures r.Ok? && secretKey.None? ==>
      |r.value.secretKey| == 56 && Base32.Decode(r.value.secretKey) == Some(randomBytes)
    ensures r.Ok? && secretKey.None? ==> r.value.secretKey == Base32.Encode(randomBytes)
  {
    var generated := Base32.Encode(randomBytes);
    Base32.RoundTrip(randomBytes);
    assert |generated| == 56 by {
      assert |generated| == 8 * ((32 + 4) / 5);
    }
    var secret := if secretKey.Some? then secretKey.value else generated;
    match env
    case None => Err(MissingEncryptionKey)
    case Some(key) => Ok(Authenticator(secret, key))
  }

  /** `GetSecreteKey()`. */
  function GetSecreteKey(a: Authenticator): Bytes {
    a.secretKey
  }

  /** A supplied secret is stored unchanged and handed back by `GetSecreteKey`. */
  lemma SuppliedSecretReturned(secretKey: Bytes, randomBytes: Bytes, env: Bytes)
    requires |randomBytes| == RandomSecretLength
    ensures New(Some(secretKey), randomBytes, Some(env)).Ok?
    ensures GetSecreteKey(New(Some(secretKey), randomBytes, Some(env)).value) == secretKey
  {
  }

  /**
   * A generated secret is always valid base32, and the HMAC key that
   * `generateTOTP(GetSecreteKey())` derives from it is exactly the random
   * bytes: the six-digit code is the truncated HMAC-SHA1, keyed by those
   * bytes, of the current 30-second step.
   */
  lemma GeneratedSecretKeysHmac(hmac: HmacSha1, randomBytes: Bytes, env: Bytes, now: nat)
    requires |randomBytes| == RandomSecretLength
    ensures New(None, randomBytes, Some(env)).Ok?
    ensures
      var code := Totp.GenerateTotp(hmac, GetSecreteKey(New(None, randomBytes, Some(env)).value), now, 30, 6);
      code.Ok? && |code.value| == 6 && Decimal.AllDigits(code.value)
      && Decimal.DigitsValue(code.value) == Hotp.Truncate(hmac(randomBytes, Totp.CounterMessage(now / 30))) % 1_000_000
  {
    assert Pow10(6) == 1_000_000;
    assert FloorDiv(now, 30) == now / 30;
  }

  /**
   * The whole life of a generated secret: construct, `encryptKey`,
   * `decryptKey`, and the restored secret keys the HMAC with the original
   * random bytes.
   */
  lemma RestoredSecretKeysHmac(c: Aes256Cbc, randomBytes: Bytes, env: Bytes, iv: Bytes)
    requires DecryptInvertsEncrypt(c)
    requires |randomBytes| == RandomSecretLength && |iv| == IvLength
    requires
      var a := New(None, randomBytes, Some(env)).value;
      Vault.EncryptKey(c, a.secretKey, a.encryptionKey, iv).Ok?
    ensures
      var a := New(None, randomBytes, Some(env)).value;
      var restored := Vault.DecryptKey(c, env, Vault.EncryptKey(c, a.secretKey, a.encryptionKey, iv).value);
      restored.Ok? && Base32.Decode(restored.value) == Some(randomBytes)
  {
    var a := New(None, randomBytes, Some(env)).value;
    Vault.DecryptOfEncrypt(c, a.secretKey, a.encryptionKey, iv);
  }
}

=== FILE: totp.dfy ===
/**
 * The TOTP engine of the newer revision, `Swift2FA::generateTOTP`, and
 * the two validators built on it. The clock is the parameter `now`, the
 * HMAC-SHA1 primitive the parameter `hmac`.
 */
module Totp {
  import opened Wrappers
  import opened Php
  import opened Bits
  import opened Pack
  import opened Decimal
  import opened Crypto
  import Base32
  import Hotp

  const DefaultTimeStep: int := 30
  const DefaultCodeLength: int := 6

  /** The HMAC message `pack("N*", 0) . pack("N*", $timestamp)`: a zero word, then the step's low 32 bits. */
  function CounterMessage(step: int): (m: Bytes)
    ensures |m| == 8
    ensures m[..4] == Repeat(0, 4)
    ensures UnpackN(m[4..]) == step % 0x1_0000_0000
  {
    var m := PackN(0) + PackN(step);
    assert m[..4] == PackN(0) && m[4..] == PackN(step);
    m
  }

  /** `ord($hash[19]) & 0x0f`: the truncation offset, the low nibble of the last digest byte. */
  function TruncationOffset(hash: Digest20): (offset: nat)
    ensures offset <= 15 && offset == hash[19] as int % 16
  {
    Pow2Values();
    MaskLiteral(hash[19] as int, 4, 0x0f);
    BitAnd(hash[19] as int, 0x0f)
  }

  /** `(a & 0x7f) << 24 | (b & 0xff) << 16 | (c & 0xff) << 8 | (d & 0xff)` is the 31-bit big-endian value. */
  lemma ShiftOrAssembly(a: nat, b: nat, c: nat, d: nat)
    requires a < 256 && b < 256 && c < 256 && d < 256
    ensures BitOr(BitOr(BitOr(Shl(BitAnd(a, 0x7f), 24), Shl(BitAnd(b, 0xff), 16)), Shl(BitAnd(c, 0xff), 8)), BitAnd(d, 0xff))
         == (a % 128) * 0x100_0000 + b * 0x1_0000 + c * 0x100 + d
  {
    Pow2Values();
    MaskLiteral(a, 7, 0x7f);
    MaskByte(b);
    MaskByte(c);
    MaskByte(d);
    var x := a % 128;
    assert BitAnd(a, 0x7f) == x;
    assert BitAnd(b, 0xff) == b && BitAnd(c, 0xff) == c && BitAnd(d, 0xff) == d;
    var y := x * 0x100 + b;
    var z := y * 0x100 + c;
    assert Shl(x, 24) == x * 0x100_0000 && Shl(b, 16) == b * 0x1_0000;
    assert Shl(y, 16) == y * 0x1_0000 && Shl(c, 8) == c * 0x100 && Shl(z, 8) == z * 0x100;
    OrDisjoint(x, Shl(b, 16), 24);
    assert BitOr(Shl(x, 24), Shl(b, 16)) == Shl(y, 16);
    OrDisjoint(y, Shl(c, 8), 16);
    assert BitOr(Shl(y, 16), Shl(c, 8)) == Shl(z, 8);
    OrDisjoint(z, d, 8);
    assert BitOr(Shl(z, 8), d) == z * 0x100 + d;
  }

  /** The four digest bytes at the offset, the first masked with 0x7f, shifted and OR-ed together. */
  function ShiftOr(w: Bytes): (code: nat)
    requires |w| == 4
    ensures code == Hotp.Bin31(w)
  {
    var a, b, c, d := w[0] as int, w[1] as int, w[2] as int, w[3] as int;
    ShiftOrAssembly(a, b, c, d);
    BitOr(BitOr(BitOr(Shl(BitAnd(a, 0x7f), 24), Shl(BitAnd(b, 0xff), 16)), Shl(BitAnd(c, 0xff), 8)), BitAnd(d, 0xff))
  }

  /** Dynamic truncation as the library writes it: the offset, then the shift-and-OR assembly. */
  function DynamicTruncation(hash: Digest20): (code: nat)
    ensures code < 0x8000_0000
    ensures code == Hotp.Truncate(hash)
  {
    var offset := TruncationOffset(hash);
    var w := hash[offset..offset + 4];
    assert Hotp.Truncate(hash) == Hotp.Bin31(w);
    ShiftOr(w)
  }

  /**
   * `generateTOTP($secret, $timeStep, $codeLength)` at Unix time `now`.
   * The secret is base32 text; the code is the truncated HMAC-SHA1 of the
   * time step, reduced modulo 10^codeLength and left-padded with '0'.
   */
  function GenerateTotp(hmac: HmacSha1, secret: Bytes, now: nat, timeStep: int, codeLength: int): (r: Result<Bytes, Error>)
    ensures Base32.Decode(secret).None? ==> r == Err(InvalidBase32)
    ensures Base32.Decode(secret).Some? && timeStep == 0 ==> r == Err(DivisionByZero)
    ensures Base32.Decode(secret).Some? && timeStep != 0 && codeLength < 0 ==> r == Err(ModuloByZero)
    ensures r.Ok? <==> Base32.Decode(secret).Some? && timeStep != 0 && codeLength >= 0
    ensures r.Ok? ==> AllDigits(r.value)
    ensures r.Ok? && codeLength >= 1 ==> |r.value| == codeLength
    ensures r.Ok? && codeLength == 0 ==> r.value == [Zero]
    ensures r.Ok? ==>
      DigitsValue(r.value)
      == Hotp.Truncate(hmac(Base32.Decode(secret).value, CounterMessage(FloorDiv(now, timeStep)))) % Pow10(codeLength)
  {
    match Base32.Decode(secret)
    case None => Err(InvalidBase32)
    case Some(key) =>
      if timeStep == 0 then Err(DivisionByZero)
      else
        var code := DynamicTruncation(hmac(key, CounterMessage(FloorDiv(now, timeStep))));
        if codeLength < 0 then Err(ModuloByZero)
        else Ok(PaddedCode(code, codeLength))
  }

  /** Within one time step the code does not change. */
  lemma StableWithinStep(hmac: HmacSha1, secret: Bytes, now1: nat, now2: nat, timeStep: int, codeLength: int)
    requires timeStep != 0 && FloorDiv(now1, timeStep) == FloorDiv(now2, timeStep)
    ensures GenerateTotp(hmac, secret, now1, timeStep, codeLength) == GenerateTotp(hmac, secret, now2, timeStep, codeLength)
  {
  }

  /**
   * `TOTPValidate($input, $secret)`: `$input === generateTOTP($secret)` with
   * the default 30-second step and 6 digits; no neighbouring step is tried.
   */
  function TotpValidate(hmac: HmacSha1, input: Bytes, secret: Bytes, now: nat): (r: Result<bool, Error>)
    ensures r.Err? <==> Base32.Decode(secret).None?
    ensures r.Err? ==> r.error == InvalidBase32
    ensures r.Ok? ==> (r.value <==> Ok(input) == GenerateTotp(hmac, secret, now, DefaultTimeStep, DefaultCodeLength))
    ensures r.Ok? && r.value ==> |input| == 6 && AllDigits(input)
  {
    match GenerateTotp(hmac, secret, now, DefaultTimeStep, DefaultCodeLength)
    case Err(e) => Err(e)
    case Ok(code) => Ok(input == code)
  }

  /** `TOTPEmailValidate($input, $secret)`: the same comparison, with the same defaults. */
  function TotpEmailValidate(hmac: HmacSha1, input: Bytes, secret: Bytes, now: nat): (r: Result<bool, Error>)
    ensures r.Err? <==> Base32.Decode(secret).None?
    ensures r.Err? ==> r.error == InvalidBase32
    ensures r.Ok? ==> (r.value <==> Ok(input) == GenerateTotp(hmac, secret, now, DefaultTimeStep, DefaultCodeLength))
    ensures r.Ok? && r.value ==> |input| == 6 && AllDigits(input)
  {
    match GenerateTotp(hmac, secret, now, DefaultTimeStep, DefaultCodeLength)
    case Err(e) => Err(e)
    case Ok(code) => Ok(input == code)
  }

  /**
   * Exactly the six-digit strings whose value is the truncated HMAC of the
   * current 30-second step, modulo 10^6, are accepted.
   */
  lemma {:induction false} ValidateAcceptsExactlyCurrentCode(hmac: HmacSha1, input: Bytes, secret: Bytes, now: nat)
    requires Base32.Decode(secret).Some?
    ensures TotpValidate(hmac, input, secret, now) == Ok(true)
      <==> (|input| == 6 && AllDigits(input)
        && DigitsValue(input) == Hotp.Truncate(hmac(Base32.Decode(secret).value, CounterMessage(now / 30))) % 1_000_000)
  {
    var code := GenerateTotp(hmac, secret, now, DefaultTimeStep, DefaultCodeLength);
    assert Pow10(6) == 1_000_000;
    assert FloorDiv(now, 30) == now / 30;
    if |input| == 6 && AllDigits(input) && DigitsValue(input) == DigitsValue(code.value) {
      DigitsValueInjective(input, code.value);
    }
  }

  /** Both validators accept and reject the same inputs. */
  lemma ValidatorsAgree(hmac: HmacSha1, input: Bytes, secret: Bytes, now: nat)
    ensures TotpEmailValidate(hmac, input, secret, now) == TotpValidate(hmac, input, secret, now)
  {
  }

  /*
   * The counter as written keeps only the low 32 bits of the time step
   * behind a constant zero word, where section 4.2 of RFC 6238 asks for a
   * time counter wider than 32 bits.
   */

  /** As written: steps 2^32 apart produce the same HMAC message. */
  lemma CounterWraps(step: int)
    ensures CounterMessage(step + 0x1_0000_0000) == CounterMessage(step)
  {
    var m1, m2 := CounterMessage(step + 0x1_0000_0000), CounterMessage(step);
    assert (step + 0x1_0000_0000) % 0x1_0000_0000 == step % 0x1_0000_0000 by {
      assert step == 0x1_0000_0000 * (step / 0x1_0000_0000) + step % 0x1_0000_0000;
      ModUnique(step + 0x1_0000_0000, 0x1_0000_0000, step / 0x1_0000_0000 + 1, step % 0x1_0000_0000);
    }
    UnpackInjective(m1[4..], m2[4..]);
    assert m1 == m1[..4] + m1[4..] && m2 == m2[..4] + m2[4..];
  }

  /** As written: the code at `now + timeStep * 2^32` repeats the code at `now`. */
  lemma CodeRepeatsAfterWrap(hmac: HmacSha1, secret: Bytes, now: nat, timeStep: int, codeLength: int)
    requires timeStep > 0
    ensures GenerateTotp(hmac, secret, now + timeStep * 0x1_0000_0000, timeStep, codeLength)
         == GenerateTotp(hmac, secret, now, timeStep, codeLength)
  {
    var q := FloorDiv(now, timeStep);
    assert FloorDiv(now + timeStep * 0x1_0000_0000, timeStep) == q + 0x1_0000_0000 by {
      assert now == timeStep * q + (now - timeStep * q);
      ModUnique(now + timeStep * 0x1_0000_0000, timeStep, q + 0x1_0000_0000, now - timeStep * q);
    }
    CounterWraps(q);
  }

  lemma CounterMessageBelowWrap(step: int)
    requires 0 <= step < 0x1_0000_0000
    ensures CounterMessage(step) == Hotp.Counter(step)
  {
    var m, c := CounterMessage(step), Hotp.Counter(step);
    SmallMod(step, 0x1_0000_0000_0000_0000);
    SmallMod(step, 0x1_0000_0000);
    assert UnpackN(Repeat(0, 4)) == 0;
    assert UnpackN(c[..4]) == 0;
    assert UnpackN(c[4..]) == step == UnpackN(m[4..]);
    UnpackInjective(c[..4], Repeat(0, 4));
    UnpackInjective(c[4..], m[4..]);
    assert m == m[..4] + m[4..] && c == c[..4] + c[4..];
  }

  lemma CounterMessageAboveWrap(step: int)
    requires 0x1_0000_0000 <= step < 0x1_0000_0000_0000_0000
    ensures CounterMessage(step) != Hotp.Counter(step)
  {
    var c := Hotp.Counter(step);
    SmallMod(step, 0x1_0000_0000_0000_0000);
    assert UnpackN(Repeat(0, 4)) == 0;
    assert UnpackN(c[..4]) != 0;
    assert c[..4] != Repeat(0, 4);
  }

  /**
   * The message as written is the 8-byte counter of RFC 4226 exactly when
   * the step fits in 32 bits (for steps in the 64-bit counter range).
   */
  lemma CounterMessageIsRfcCounter(step: int)
    requires 0 <= step < 0x1_0000_0000_0000_0000
    ensures CounterMessage(step) == Hotp.Counter(step) <==> step < 0x1_0000_0000
  {
    if step < 0x1_0000_0000 {
      CounterMessageBelowWrap(step);
    } else {
      CounterMessageAboveWrap(step);
    }
  }

  /** Corrected: distinct steps in the 64-bit counter range give distinct HMAC messages. */
  lemma {:induction false} RfcCounterInjective(step1: int, step2: int)
    requires 0 <= step1 < 0x1_0000_0000_0000_0000 && 0 <= step2 < 0x1_0000_0000_0000_0000
    requires Hotp.Counter(step1) == Hotp.Counter(step2)
    ensures step1 == step2
  {
    var c := Hotp.Counter(step1);
    SmallMod(step1, 0x1_0000_0000_0000_0000);
    SmallMod(step2, 0x1_0000_0000_0000_0000);
    assert step1 == UnpackN(c[..4]) * 0x1_0000_0000 + UnpackN(c[4..]) == step2;
  }

  /**
   * Corrected `generateTOTP`: the same computation with the full 64-bit
   * step as the counter, `pack("J", $timestamp)` in PHP.
   */
  function GenerateTotpRfc(hmac: HmacSha1, secret: Bytes, now: nat, timeStep: int, codeLength: int): (r: Result<Bytes, Error>)
    ensures r.Ok? <==> Base32.Decode(secret).Some? && timeStep != 0 && codeLength >= 0
    ensures r.Err? ==> r == GenerateTotp(hmac, secret, now, timeStep, codeLength)
    ensures r.Ok? ==> AllDigits(r.value)
    ensures r.Ok? && codeLength >= 1 ==> |r.value| == codeLength
    ensures r.Ok? && codeLength == 0 ==> r.value == [Zero]
    ensures r.Ok? ==>
      DigitsValue(r.value)
      == Hotp.Truncate(hmac(Base32.Decode(secret).value, Hotp.Counter(FloorDiv(now, timeStep)))) % Pow10(codeLength)
  {
    match Base32.Decode(secret)
    case None => Err(InvalidBase32)
    case Some(key) =>
      if timeStep == 0 then Err(DivisionByZero)
      else
        var code := DynamicTruncation(hmac(key, Hotp.Counter(FloorDiv(now, timeStep))));
        if codeLength < 0 then Err(ModuloByZero)
        else Ok(PaddedCode(code, codeLength))
  }

  /** Until the step reaches 2^32 the corrected engine gives the same codes as the original. */
  lemma RfcAgreesBeforeWrap(hmac: HmacSha1, secret: Bytes, now: nat, timeStep: int, codeLength: int)
    requires timeStep > 0 && FloorDiv(now, timeStep) < 0x1_0000_0000
    ensures GenerateTotpRfc(hmac, secret, now, timeStep, codeLength) == GenerateTotp(hmac, secret, now, timeStep, codeLength)
  {
    var step := FloorDiv(now, timeStep);
    CounterMessageBelowWrap(step);
    match Base32.Decode(secret)
    case None =>
    case Some(key) =>
      assert hmac(key, CounterMessage(step)) == hmac(key, Hotp.Counter(step));
  }
}

=== FILE: vault.dfy ===
/**
 * The at-rest form of the secret in the newer revision:
 * `Swift2FA::encryptKey` stores `base64(ciphertext . "::" . iv)` and
 * `Swift2FA::decryptKey` splits it again with `explode("::", ..., 2)`.
 * The object's two fields are passed in as `secretKey` and
 * `encryptionKey`; the IV from `openssl_random_pseudo_bytes` is a parameter.
 */
module Vault {
  import opened Wrappers
  import opened Php
  import opened Crypto
  import Base64

  /** The separator "::". */
  const Separator: Bytes := [Colon, Colon]

  /** `$encryptedSecret . "::" . $iv`. */
  function Frame(ciphertext: Bytes, iv: Bytes): Bytes {
    ciphertext + Separator + iv
  }

  /**
   * `list($encryptedSecret, $iv) = explode("::", $blob, 2)`. Without a
   * separator `$iv` is null, and passing null as the IV throws a TypeError
   * under `strict_types`: that case is `MalformedBlob`.
   */
  function Unframe(blob: Bytes): (r: Result<(Bytes, Bytes), Error>)
    ensures r.Err? <==> forall j: nat :: !OccursAt(blob, Separator, j)
    ensures r.Err? ==> r.error == MalformedBlob
    ensures r.Ok? ==> blob == Frame(r.value.0, r.value.1)
    ensures r.Ok? ==> forall j | 0 <= j < |r.value.0| :: !OccursAt(blob, Separator, j)
  {
    var parts := Explode2(Separator, blob);
    if |parts| == 1 then Err(MalformedBlob) else Ok((parts[0], parts[1]))
  }

  /**
   * A ciphertext without ':' is split off exactly, whatever bytes the IV
   * holds (including "::").
   */
  lemma UnframeFrame(ciphertext: Bytes, iv: Bytes)
    requires Colon !in ciphertext
    ensures Unframe(Frame(ciphertext, iv)) == Ok((ciphertext, iv))
  {
    var blob := Frame(ciphertext, iv);
    assert OccursAt(blob, Separator, |ciphertext|) by {
      assert blob[|ciphertext|..|ciphertext| + 2] == Separator;
    }
    var r := Unframe(blob);
    var head := r.value.0;
    assert |head| <= |ciphertext|;
    assert blob[|head|] == Colon;
    assert |head| >= |ciphertext|;
    assert head == blob[..|head|] == ciphertext;
    assert r.value.1 == blob[|head| + 2..] == iv;
  }

  /**
   * `encryptKey()`: encrypts the secret under `base64_decode` of the
   * encryption key and frames it with the IV. A result that is loosely
   * equal to false (false, "" or "0") throws instead of returning the blob.
   */
  function EncryptKey(c: Aes256Cbc, secretKey: Bytes, encryptionKey: Bytes, iv: Bytes): (r: Result<Bytes, Error>)
    requires |iv| == IvLength
    ensures r.Err? <==> !IsTruthy(OpensslEncrypt(c, secretKey, Base64.DecodeLoose(encryptionKey), iv))
    ensures r.Err? ==> r.error == EncryptionFailed
    ensures r.Ok? ==> exists ciphertext ::
      Unframe(Base64.DecodeLoose(r.value)) == Ok((ciphertext, iv))
      && Base64.DecodeStrict(ciphertext) == c.encrypt(Base64.DecodeLoose(encryptionKey), iv, secretKey)
    ensures r.Ok? ==> r.value == Base64.Encode(Base64.DecodeLoose(r.value))
    ensures r.Ok? ==> exists ciphertext ::
      Base64.DecodeLoose(r.value) == Frame(ciphertext, iv)
      && Some(ciphertext) == OpensslEncrypt(c, secretKey, Base64.DecodeLoose(encryptionKey), iv)
  {
    var encrypted := OpensslEncrypt(c, secretKey, Base64.DecodeLoose(encryptionKey), iv);
    if !IsTruthy(encrypted) then Err(EncryptionFailed)
    else
      var blob := Frame(encrypted.value, iv);
      Base64.LooseRoundTrip(blob);
      UnframeFrame(encrypted.value, iv);
      Ok(Base64.Encode(blob))
  }

  /** `encryptKey` fails exactly when the cipher fails or produces no bytes. */
  lemma EncryptFailsExactly(c: Aes256Cbc, secretKey: Bytes, encryptionKey: Bytes, iv: Bytes)
    requires |iv| == IvLength
    ensures EncryptKey(c, secretKey, encryptionKey, iv).Err?
        <==> (var raw := c.encrypt(Base64.DecodeLoose(encryptionKey), iv, secretKey); raw.None? || raw.value == [])
  {
    var raw := c.encrypt(Base64.DecodeLoose(encryptionKey), iv, secretKey);
    if raw.Some? {
      Base64.EncodeEmpty(raw.value);
    }
  }

  /**
   * `decryptKey($encryptedData)`: `base64_decode` the blob, split off the
   * IV, and decrypt under `base64_decode` of the encryption key; a
   * decryption that returns false throws.
   */
  function DecryptKey(c: Aes256Cbc, encryptionKey: Bytes, encryptedData: Bytes): (r: Result<Bytes, Error>)
    ensures r == Err(MalformedBlob) <==> Unframe(Base64.DecodeLoose(encryptedData)).Err?
    ensures r.Err? ==> r.error == MalformedBlob || r.error == DecryptionFailed
    ensures r.Ok? ==> exists ciphertext, iv, raw ::
      Base64.DecodeLoose(encryptedData) == Frame(ciphertext, iv)
      && Base64.DecodeStrict(ciphertext) == Some(raw)
      && c.decrypt(Base64.DecodeLoose(encryptionKey), iv, raw) == Some(r.value)
    ensures var u := Unframe(Base64.DecodeLoose(encryptedData));
      u.Ok? ==> var d := OpensslDecrypt(c, u.value.0, Base64.DecodeLoose(encryptionKey), u.value.1);
        d.Some? ==> r == Ok(d.value)
    ensures var u := Unframe(Base64.DecodeLoose(encryptedData));
      u.Ok? ==> var d := OpensslDecrypt(c, u.value.0, Base64.DecodeLoose(encryptionKey), u.value.1);
        d.None? ==> r == Err(DecryptionFailed)
  {
    match Unframe(Base64.DecodeLoose(encryptedData))
    case Err(e) => Err(e)
    case Ok((ciphertext, iv)) =>
      match OpensslDecrypt(c, ciphertext, Base64.DecodeLoose(encryptionKey), iv)
      case None => Err(DecryptionFailed)
      case Some(plain) => Ok(plain)
  }

  /** With a cipher whose decryption undoes encryption, `decryptKey(encryptKey())` is the secret. */
  lemma DecryptOfEncrypt(c: Aes256Cbc, secretKey: Bytes, encryptionKey: Bytes, iv: Bytes)
    requires DecryptInvertsEncrypt(c)
    requires |iv| == IvLength
    requires EncryptKey(c, secretKey, encryptionKey, iv).Ok?
    ensures DecryptKey(c, encryptionKey, EncryptKey(c, secretKey, encryptionKey, iv).value) == Ok(secretKey)
  {
    var key := Base64.DecodeLoose(encryptionKey);
    var ciphertext := OpensslEncrypt(c, secretKey, key, iv).value;
    Base64.LooseRoundTrip(Frame(ciphertext, iv));
    UnframeFrame(ciphertext, iv);
    OpensslRoundTrip(c, secretKey, key, iv);
  }
}

=== FILE: wrappers.dfy ===
/** Failure-carrying datatypes shared by every module of the model. */
module Wrappers {

  /** A value that may be absent: PHP's `null` (or `false`) where a string was expected. */
  datatype Option<+T> = None | Some(value: T)

  /** Either a returned value or the exception the PHP code throws instead. */
  datatype Result<+T, +E> = Ok(value: T) | Err(error: E)
}
